=== FILE: README.md ===
# Portal navigation, blog text pipeline and entity escapers

This project models the three pieces of plain logic in the personal-site scripts
`app.js`, `blog.js` and `post.js`, and proves properties about them in Dafny.

- **The portal navigation state machine** (`app.js`). Its state is `idx`, `lock`
  and `inContentMode` over the six page keys of `ORDER`.
  - Module `Portal` defines `setActivePage`, `enterContentMode` and
    `portalTransition`. It also defines the wheel, dock, circle and touch
    handlers, `shouldLetInnerScroll`, `jumpFromQuery` and the closing init block.
    Each of these is a function from one `World` to the next.
  - The `setTimeout` callbacks become explicit pending timers with due times:
    680 ms for the entry unlock, and 560 ms then 620 ms for a page change.
    `AdvanceTo` fires due timers earliest first, and in scheduling order on ties.
  - Module `PortalTiming` states the invariant every reachable world keeps. It
    also proves the timing consequences, including the three defects listed
    under Findings.
- **The blog text pipeline** (`blog.js`).
  - Module `Blog` covers `normalize`, `matchesFilters`, the filter-then-sort of
    `renderGrid`, the sort toggle, `buildTagOptions` and `escapeHtml`.
  - Module `Markdown` covers `renderMarkdownLite` and `linkify`.
  - The renderer's meaning is a list of HTML blocks (`Markdown.Blocks`). The
    loop is proved to build exactly their markup.
- **The entity escapers**.
  - Module `Entities` is shared by all three escapers. It proves that the
    chained `replaceAll` escaper of `app.js` and `blog.js` equals a
    per-character map, because `&` is replaced first. It also proves that the
    output is safe and that decoding gives back the input.
  - Modules `App` and `Post` hold the `app.js` escaper and the single-pass
    `post.js` escaper, which spells the apostrophe `&#39;`.
- **Shared modules**. `JsString` models the JavaScript string primitives the
  scripts use. `Wrappers` holds `Option`, which stands for `null` and `undefined`.

The model follows the code as written. Where the code's own comments state an
intent the code misses, the as-written behaviour and a corrected one are both
modelled. For example, `jumpFromQuery` is commented "enter content mode then
jump" (app.js:506), but the follow-up jump is dropped (second Findings row).

## Model

| member | source | states |
|---|---|---|
| JsString.Trim | blog.js:192 | `trim()` returns a slice of its input. Everything outside the slice is white space, and the slice neither starts nor ends with white space. |
| JsString.ToLower | app.js:503 | `toLowerCase()` keeps the length, maps each position by the ASCII letter map, and leaves no upper-case ASCII letter. |
| JsString.Includes | blog.js:113 | `includes(q)` is true exactly when `q` occurs at some index of the haystack. |
| JsString.Split | blog.js:183 | `split("\n")` returns at least one piece, and no piece holds the separator. |
| JsString.JoinSplit | blog.js:183 | Joining the pieces of `split` with the separator gives back the original text. |
| JsString.SplitJoin | blog.js:183 | Splitting separator-free pieces joined by the separator gives back the pieces. |
| Entities.ChainedIsPerChar | app.js:147-154 | The five chained `replaceAll` calls, with `&` first, equal the per-character entity map, so nothing is escaped twice. |
| Entities.ChainedChar | blog.js:222-229 | One character through the chain yields exactly its own entity: no later step rewrites an entity an earlier step produced. |
| Entities.AmpersandLastDoubleEscapes | blog.js:222-229 | With the `&` step moved to the end of the chain, the result equals the per-character escape exactly when the text holds none of `<`, `>`, `"`, `'`. Otherwise each of them is escaped twice, and the output is longer. |
| Entities.EscapePlain | post.js:65 | Characters other than the five special ones are copied unchanged. |
| Entities.EscapeIsSafe | post.js:65 | The output holds no raw `<`, `>`, `"` or `'`, and every `&` in it begins one of the five entities. |
| Entities.EscapeRoundTrip | app.js:147-154 | Decoding the five entities undoes the escape, so the escape is injective. |
| Entities.AposSpellingsAgree | post.js:65 | The `&#39;` and `&#039;` spellings give the same output exactly when the input has no apostrophe. |
| App.EscapeHtml | app.js:147-154 | `null`/`undefined` yield "". The result is the per-character map with `&#039;`, is safe, and decodes back to the input. |
| Post.EscapeHtml | post.js:64-66 | The single pass yields the concatenation of per-character images with `&#39;`, or "" for a falsy input. The result is safe and decodes back. |
| Blog.EscapeHtml | blog.js:222-229 | A falsy input yields "". The result is the per-character map with `&#039;`, is safe, and decodes back to the input. |
| Blog.Normalize | blog.js:92 | `normalize` returns a trimmed slice of the lower-cased input that has no upper-case ASCII letter and no white space at either end. |
| Blog.NormalizeIdempotent | blog.js:92 | Normalizing a normalized string changes nothing. |
| Blog.HasTag | blog.js:114 | `(p.tags \|\| []).includes(tag)` holds exactly when the tag is in the list. |
| Blog.MatchesFilters | blog.js:105-117 | True exactly when both hold: the normalized query is empty or occurs in the normalized haystack; and the tag choice is absent, empty or "all", or is one of the post's tags. |
| Blog.SearchIgnoresCase | blog.js:106-113 | Upper- and lower-case ASCII spellings of a query select the same posts. |
| Blog.TagNamedAllMatchesEveryPost | blog.js:107-114 | Choosing the tag "all" filters exactly as having no tag drop-down does. |
| Blog.TagNamedAllCollides | blog.js:94-114 | When some post is tagged "all", the drop-down offers, besides "All tags", an option whose value decodes to "all". Choosing it accepts every post the search accepts, including posts without that tag. |
| Blog.FilterPosts | blog.js:122 | `posts.filter(matchesFilters)` keeps each accepted post as often as it occurs, drops the others, and keeps the original order. |
| Blog.SortByDate | blog.js:123-127 | The sorted grid is a permutation of its input, ordered newest first or oldest first. A missing date counts as 1970-01-01. |
| Blog.SortIsStable | blog.js:123-127 | Posts with the same date keep their relative order. |
| Blog.RenderGrid | blog.js:119-132 | The "No posts found." card appears exactly when no post matches. Otherwise the cards are exactly the matching posts, each as often as in `posts`, in date order, and posts with the same date keep their order in `posts`. |
| Blog.ToggleSort | blog.js:173-177 | The sort button flips `sortNewest`, labels the button with the new order, and changes nothing else. |
| Blog.ToggleSortTwice | blog.js:173-177 | Two clicks on the sort button restore the original view. |
| Blog.ToggleSortReorders | blog.js:173-177 | After a click the grid is ordered the other way. |
| Blog.AllTags | blog.js:97 | The tags visited are exactly the tags of some post. |
| Blog.AddToSet | blog.js:96-97 | Adding to the `Set` keeps it duplicate-free, and it holds exactly the old members plus the added tags. |
| Blog.SortTags | blog.js:98 | Sorting the distinct tags keeps the same tags and makes them strictly increasing. |
| Blog.TagList | blog.js:96-98 | The listed tags are strictly increasing, so each appears once, and they are exactly the tags of some post. |
| Blog.TagOptions | blog.js:100-102 | "All tags" with value "all" comes first, then one option per listed tag. Each option's value equals its text, is safe, and decodes to the tag. |
| Markdown.UrlAt | blog.js:219 | A match is `http://` or `https://` followed by the longest non-empty run of characters that are neither white space nor `<`. |
| Markdown.LinkifyWithoutUrl | blog.js:217-220 | Text in which no URL starts is left unchanged. |
| Markdown.LinkifyPrefix | blog.js:217-220 | Text before the first URL is copied unchanged, and `linkify` then carries on from there. |
| Markdown.LinkifyFirstUrl | blog.js:217-220 | `linkify` replaces the first URL of the text by its anchor, and copies the text before it. |
| Markdown.LinkifyUnchangedIff | blog.js:217-220 | On text without `<`, `linkify` returns its input exactly when no URL starts anywhere in it. |
| Markdown.LinkifyAddsOnlyAnchors | blog.js:217-220 | On text without `<` or `>`, removing the tags of the output gives back the input, so anchors are the only additions. |
| Markdown.StripAnchor | blog.js:219 | Removing the tags of an anchor leaves its URL as the link text. |
| Markdown.LinkifyEscaped | blog.js:201 | Linkified escaped text differs from the escaped text only by added anchor tags. |
| Markdown.LineBlock | blog.js:192-210 | A line yields nothing exactly when it is blank after trimming. Otherwise it yields a heading, an item or a paragraph, never a list marker. |
| Markdown.AssembleWellFormed | blog.js:187-213 | From any list state, the loop and the closing `endList()` keep the list discipline. |
| Markdown.BlocksWellFormed | blog.js:185-213 | `<ul>` is never nested and is always followed by an item. Items appear only inside a list, and every list is closed by the end. |
| Markdown.AssembleContent | blog.js:191-211 | From any list state, the output without list markers is exactly the lines' blocks. |
| Markdown.BlocksContent | blog.js:191-211 | Without the `<ul>`/`</ul>` markers, the output is exactly the blocks of the non-blank lines, in line order. |
| Markdown.CloseList | blog.js:187-189 | `endList()` appends `</ul>` exactly when a list is open, and leaves it closed. |
| Markdown.OpenList | blog.js:200 | An item opens a list (`<ul>`) only when none is open, and leaves it open. |
| Markdown.EmitBlock | blog.js:195-210 | A heading or paragraph first closes an open list; an item first opens one. Then the block's markup is appended. |
| Markdown.RenderLine | blog.js:192-210 | The loop body appends exactly the markup of the line's blocks, and sets `inList` as the block discipline says. |
| Markdown.RenderBodyLine | blog.js:199-210 | The same, for item, blank and paragraph lines. |
| Markdown.RenderLines | blog.js:184-214 | The loop over the lines plus the final `endList()` builds exactly the serialization of the lines' blocks. |
| Markdown.RenderMarkdownLite | blog.js:182-215 | `renderMarkdownLite` returns the markup of the blocks of the lines of `md \|\| ""`. |
| Portal.Clamp | app.js:181 | The result is a valid page index. It is the argument itself when that is valid, otherwise the nearer end. |
| Portal.ClampNearest | app.js:285 | No valid index is closer to the request than the clamped one, and clamping is idempotent. |
| Portal.IndexOf | app.js:348 | `ORDER.indexOf(key)` is -1 exactly for keys outside `ORDER`; otherwise it is the first position of the key. |
| Portal.SetActivePage | app.js:180-186 | `idx` becomes the clamped argument, and an activation notice for that page is logged. |
| Portal.EnterContentMode | app.js:246-278 | A no-op when in content mode or locked. Otherwise it locks, enters content mode on page 0, and schedules the unlock 680 ms later. |
| Portal.PortalTransition | app.js:281-337 | A no-op outside content mode, while locked, or when the clamped target is current. Otherwise it locks, moves `idx` at once, and schedules the expansion 560 ms later. |
| Portal.Run | app.js:315-336 | A timer body leaves the clock and the touch state alone and only adds timers. An unlock clears only `lock`. An expansion activates its page, logs it, and schedules the unlock 620 ms later. A jump is `portalTransition`. |
| Portal.Fire | app.js:315-336 | Firing moves the clock to the earliest due time, or keeps it when it is already later. |
| Portal.FireKeepsLater | app.js:315-336 | Every timer due later than the one that fires stays pending. |
| Portal.AdvanceTo | app.js:315-336 | Letting time pass to `t` leaves the clock at `t` (or later) and nothing pending due by `t`. |
| Portal.AdvanceKeepsLater | app.js:315-336 | Every timer due after `t` is still pending after time passes to `t`. |
| Portal.AdvanceNothingDue | app.js:315-336 | When nothing is due by `t`, letting time pass only moves the clock. |
| Portal.Dominant | app.js:232 | The vertical delta when its magnitude is strictly larger, the horizontal one otherwise; its magnitude is the larger of the two. |
| Portal.ShouldLetInnerScroll | app.js:221-244 | True exactly when the card exists and can scroll more than 2 px, and either the delta is tiny (under 2) or the card is not yet at its edge in the delta's direction. |
| Portal.WheelRequest | app.js:366-382 | Ignored when the card scrolls or the dominant delta is under 12. Enters from the landing circle. Otherwise, unless locked, moves to `idx+1` for a positive delta and `idx-1` for any other. |
| Portal.CircleClick | app.js:340-342 | In content mode a click changes nothing. Otherwise it is exactly `enterContentMode`. While locked that does nothing. When unlocked it enters content mode on page 0 with the lock held, logs the activation and expansion of page 0, and schedules the unlock 680 ms later. Nothing else changes. |
| Portal.TouchStart | app.js:436-446 | While locked nothing happens. Otherwise tracking starts with both the start and the last point at the touch, and swiping allowed as the touch's origin says. Nothing else changes. |
| Portal.TouchMove | app.js:448-465 | Without tracking nothing happens. Otherwise only the last point moves, to the touch. |
| Portal.TouchEnd | app.js:467-496 | Without tracking nothing happens. Otherwise tracking stops. When swiping is not allowed or the lock is held, nothing else changes. Otherwise the swipe's request is performed, and swiping stays allowed only when it did not ask for a page change. |
| Portal.DockClickAfter | app.js:345-363 | Unknown keys are ignored. From the landing circle it does what `enterContentMode` does to the page state, the log and the unlock timer, and adds a forward jump for a page other than home. It leaves the clock and the touch state alone. In content mode it asks for the page, forward exactly when `n > idx`. |
| Portal.SwipeRequest | app.js:475-494 | Ignored when `\|dy\| < 56` or `\|dx\| > 0.6·\|dy\|`. Enters from the landing circle. Otherwise an upward swipe asks for `idx+1` and any other for `idx-1`. |
| Portal.QueryJumpAfter | app.js:500-510 | A present, non-empty `?p=` naming a page after lower-casing enters content mode, and schedules a jump for a page other than home. Anything else changes nothing. |
| Portal.Init | app.js:514-522 | The init block resets to the landing state on page 0 and leaves pending timers in place. |
| Portal.BootAsWritten | app.js:500-526 | As written, start-up runs `jumpFromQuery` first and then the init block. It ends at time 0 on the landing circle, with the timers `jumpFromQuery` scheduled still pending. |
| PortalTiming.InvEnter | app.js:246-278 | `enterContentMode` keeps the invariant: valid index, a lock only in content mode, exactly one unlock timer while locked, none overdue. |
| PortalTiming.InvTransition | app.js:281-337 | `portalTransition` keeps the invariant. |
| PortalTiming.InvFire | app.js:273-336 | Running the next due timer callback keeps the invariant. |
| PortalTiming.InvAdvance | app.js:315-336 | Letting time pass keeps the invariant. |
| PortalTiming.InvDock | app.js:345-363 | The dock handler keeps the invariant for any jump delay. |
| PortalTiming.InvTouchEnd | app.js:467-496 | The `touchend` handler keeps the invariant. |
| PortalTiming.InvStep | app.js:340-496 | Every handler and every passage of time keeps the invariant, whatever the delay of the dock's follow-up jump. |
| PortalTiming.InvBoot | app.js:500-522 | Start-up, with the init block first, gives a world in which the invariant holds. |
| PortalTiming.InvSession | app.js:175-186 | With the corrected start-up and dock handler, after start-up and any input sequence the invariant holds, so `idx` is always in [0, 5]. |
| PortalTiming.ValidSessionAsWritten | app.js:180-181 | With the start-up and dock handler as written, `idx` stays in [0, 5] after any input sequence. |
| PortalTiming.AdvanceKeepsContentMode | app.js:246-250 | No timer leaves content mode. |
| PortalTiming.ContentModeStays | app.js:246-250 | Once the landing circle is left, no input returns to it. |
| PortalTiming.LockedQuiet | app.js:283 | While locked with no unlock due, passing time only fires jumps, and each is dropped. |
| PortalTiming.EnterHoldsLock | app.js:273-283 | For 680 ms after entering, the lock is held on page 0 and every `portalTransition` is rejected. |
| PortalTiming.EnterReleasesLock | app.js:273-277 | With nothing else pending, the lock is released exactly 680 ms after entering. |
| PortalTiming.TransitionHoldsLock | app.js:281-337 | An accepted transition holds the lock on its target for 560 + 620 ms, rejecting every other transition meanwhile. |
| PortalTiming.TransitionReleasesLock | app.js:315-336 | After 560 + 620 ms the lock is released on the target page. The collapse, highlight, spin, activation and expansion are logged in that order. |
| PortalTiming.JumpDuringEntryIsLost | app.js:273-283 | A jump due before the entry unlock is dropped: the visitor stays on home. |
| PortalTiming.JumpAfterEntryLands | app.js:281-337 | A jump due at or after the entry unlock is accepted. The index moves to its target, locked for one transition and free after. |
| PortalTiming.DockJumpIsLost | app.js:351-356 | As written, a dock click on a page other than home from the landing circle leaves the visitor on home. |
| PortalTiming.DockJumpLands | app.js:351-356 | With the jump due at the entry unlock, the dock click lands on its page and is unlocked after the transition. |
| PortalTiming.IdleQuiet | app.js:282 | On the landing circle with no expansion pending, passing time changes nothing. |
| PortalTiming.BootStaysIdle | app.js:500-522 | As written, start-up ends and stays on the landing circle whatever `?p=` says. |
| PortalTiming.BootJumpLands | app.js:500-522 | With the init block first and the jump due at the entry unlock, `?p=` opens its page. |
| PortalTiming.BootProjectsAsWritten | app.js:500-522 | As written, `?p=projects` ends on the landing circle with the entry timer and the jump still pending. |
| PortalTiming.StaleEntryTimerUnlocksEarly | app.js:273-277 | The entry timer from `jumpFromQuery` outlives the init block. It releases a later entry's lock early, so a wheel event starts a transition during the entry animation. |
| PortalTiming.BootAsWrittenBreaksInv | app.js:507-520 | As-written start-up leaves the lock free while an unlock timer is pending. |

## Left out

- The DOM: class toggles become `Notice`s in a log, and element lookups become absent or present values. `hideAllPages`, `showCircle`, `hideCircle` and the CSS-variable writes are not modelled.
- `getPortalOriginVars` and the circle's rotation angle: floating-point layout maths. The spin is logged only as a direction. The NaN angle from the direction-less start-up jump is not modelled.
- Sounds (`safePlay`), the canvas animations, the reader overlay (`openReader`, `closeReader`) and the card click handlers: side effects with no logic to state.
- `fetch` and JSON loading (`loadPosts`, post.js `load`) and `marked.parse`: I/O and a foreign library. Posts arrive as plain records.
- `canStartSwipeFrom`, `isInteractive`, `isInsideScrollable`: DOM queries. Their verdict is the `fromBackground` parameter of the touch start.
- `touchmove`'s `preventDefault`: a browser side effect. Only the recorded coordinates are modelled.
- `SWIPE.on` is the constant `true`, so its checks are left out.
- `SWIPE.edgeBlock` only affects `preventDefault`.
- The 220 ms `hideCircle` timer: it changes only a CSS class.
- JsString.ToLower: maps only the ASCII letters. Unicode case mapping is not modelled.
- Blog.SortByDate: dates are integer timestamps, with a missing date as 1970-01-01 (timestamp 0). Invalid dates, which give `NaN` in the source, are not modelled.
- Blog.TagList: tags are ordered by code point (Unicode scalar value), not by `localeCompare`, which depends on the locale. Outside the Basic Multilingual Plane this order also differs from JavaScript's UTF-16 code-unit comparison.
- Non-string values reaching the escapers (numbers, objects) are not modelled. `null`, `undefined` and missing fields are `None` or empty.
- Blog.RenderGrid: the card markup is not modelled; the result is the list of shown posts.
- Blog.OptionsHtml: serializes the options but has no contract; `Blog.TagOptions` states what the options hold.
- The renderer helpers `Markdown.EmitBlock` and `Markdown.RenderBodyLine` factor the inline loop body of `renderMarkdownLite`. They are not functions of the source.
- `Markdown.LineBlock` calls the entity escape directly. This escape equals `blog.js`'s `escapeHtml` on every input (`Blog.EscapeHtml`).
- PortalTiming.InvSession: the full invariant (one unlock timer exactly while locked) is proved for `Portal.Session`, which uses the corrected start-up and dock handler. The as-written `Portal.SessionAsWritten` breaks it (third Findings row), so for it only the index bound is proved, by `PortalTiming.ValidSessionAsWritten`.
- Pixel quantities (wheel deltas, scroll metrics, touch coordinates) are reals. The NaN and infinite values of JavaScript numbers are not modelled, and exact real arithmetic replaces double rounding at the thresholds (`absY * 0.6`, `scrollTop + clientHeight >= scrollHeight - 1`, `scrollHeight - clientHeight > 2`).

## Findings

| source | as written | input that shows it | evidently intended | confidence | as-written member | corrected member |
|---|---|---|---|---|---|---|
| app.js:351-356 | From the landing circle, a dock click calls `enterContentMode` (lock held 680 ms). It then schedules `portalTransition(n, +1)` only 260 ms later, and that call is dropped because the lock is still held. | Click the "projects" dock item before entering; at 680 ms the visitor is on home, unlocked. | The visitor lands on the clicked page. | not executed | PortalTiming.DockJumpIsLost | PortalTiming.DockJumpLands |
| app.js:500-522 | `jumpFromQuery` runs before the init block, which resets `inContentMode`, `lock` and `idx`. The jump 220 ms later then finds content mode off. Even without the reset, 220 ms is inside the 680 ms entry lock. | Load the page with `?p=projects`: it stays on the landing circle. | `?p=` opens the named page. | not executed | PortalTiming.BootStaysIdle | PortalTiming.BootJumpLands |
| app.js:273-277 | The 680 ms entry unlock scheduled by `jumpFromQuery` outlives the init block's reset. It then releases the lock of a later entry early. | Load `?p=projects`, click the circle at 100 ms, and scroll down at 680 ms: a transition starts during the entry animation. | Exactly one pending unlock while locked, and none while free. | not executed | PortalTiming.StaleEntryTimerUnlocksEarly | PortalTiming.InvSession |

=== FILE: blog.dfy ===
/**
 The pure part of `blog.js`: the search/tag predicate, the filter-then-sort of
 the post grid, the sort toggle, the tag drop-down and the chained entity
 escaper. A post is a plain record; a missing field is the empty string or the
 empty list (the scripts read every field through `|| ""` / `|| []`), and a date
 is an integer timestamp with a missing date read as 1970-01-01, timestamp 0.
 */
module Blog {
  import opened Wrappers
  import opened JsString
  import opened Entities

  datatype Post = Post(
    id: string,
    title: string,
    date: Option<int>,
    tags: seq<string>,
    excerpt: string,
    content: string)

  /** The values of the search box and the tag drop-down; `None` when the element is absent. */
  datatype Controls = Controls(search: Option<string>, tag: Option<string>)

  /* ---------------------------------------------------------------- escaping */

  /** The `escapeHtml` of `blog.js`: a falsy input counts as the empty string, then the same five chained `replaceAll` calls as in `app.js`. */
  function EscapeHtml(s: Option<string>): (r: string)
    ensures s.None? ==> r == ""
    ensures r == Escape(s.GetOr(""), Apos039)
    ensures Safe(r, Apos039)
    ensures Unescape(r, Apos039) == s.GetOr("")
  {
    var t := s.GetOr("");
    ChainedIsPerChar(t);
    EscapeIsSafe(t, Apos039);
    EscapeRoundTrip(t, Apos039);
    Chained(t)
  }

  /* ---------------------------------------------------------------- search */

  /** `normalize(s)`: lower-cased, then trimmed; free of upper-case ASCII and of white space at either end. */
  function Normalize(s: Option<string>): (r: string)
    ensures exists i :: TrimmedAt(ToLower(s.GetOr("")), r, i)
    ensures forall k :: 0 <= k < |r| ==> !('A' <= r[k] <= 'Z')
    ensures |r| > 0 ==> !IsSpace(r[0]) && !IsSpace(r[|r| - 1])
  {
    var l := ToLower(s.GetOr(""));
    TrimHasNoUpper(l);
    Trim(l)
  }

  /** Trimming text free of upper-case ASCII leaves it free of upper-case ASCII. */
  lemma TrimHasNoUpper(l: string)
    requires forall k :: 0 <= k < |l| ==> !('A' <= l[k] <= 'Z')
    ensures forall k :: 0 <= k < |Trim(l)| ==> !('A' <= Trim(l)[k] <= 'Z')
  {
    var r := Trim(l);
    var i :| TrimmedAt(l, r, i);
    forall k | 0 <= k < |r|
      ensures !('A' <= r[k] <= 'Z')
    {
      assert r[k] == l[i + k];
    }
  }

  lemma TrimStartNoop(s: string)
    requires |s| == 0 || !IsSpace(s[0])
    ensures TrimStart(s) == s
  {
  }

  lemma TrimEndNoop(s: string)
    requires |s| == 0 || !IsSpace(s[|s| - 1])
    ensures TrimEnd(s) == s
  {
  }

  lemma ToLowerIdempotent(s: string)
    ensures ToLower(ToLower(s)) == ToLower(s)
  {
    assert forall k :: 0 <= k < |s| ==> LowerChar(LowerChar(s[k])) == LowerChar(s[k]);
  }

  /** Normalizing twice is normalizing once. */
  lemma NormalizeIdempotent(s: Option<string>)
    ensures Normalize(Some(Normalize(s))) == Normalize(s)
  {
    var n := Normalize(s);
    assert ToLower(n) == n;
    TrimStartNoop(n);
    TrimEndNoop(n);
  }

  /** The text a post is searched in: title, tags joined by blanks, excerpt and content, separated by blanks. */
  function Haystack(p: Post): string
  {
    p.title + " " + Join(p.tags, " ") + " " + p.excerpt + " " + p.content
  }

  /** Whether the post's tag list (empty when missing) holds the tag. */
  function HasTag(tags: seq<string>, tag: string): (r: bool)
    ensures r <==> tag in tags
  {
    if |tags| == 0 then false
    else tags[0] == tag || HasTag(tags[1..], tag)
  }

  /** The chosen tag: an absent drop-down or an empty value means the "all" sentinel. */
  function TagChoice(c: Controls): string
  {
    if c.tag.None? || c.tag.value == "" then "all" else c.tag.value
  }

  /**
   `matchesFilters(p)`: true exactly when the normalized query is empty or occurs
   in the normalized haystack, and the chosen tag is "all" or one of the post's tags.
   */
  function MatchesFilters(p: Post, c: Controls): (r: bool)
    ensures r <==>
      && (Normalize(c.search) == "" || exists i :: OccursAt(Normalize(Some(Haystack(p))), Normalize(c.search), i))
      && (c.tag.None? || c.tag.value == "" || c.tag.value == "all" || c.tag.value in p.tags)
  {
    var q := Normalize(c.search);
    var tag := TagChoice(c);
    var hay := Normalize(Some(Haystack(p)));
    var qOk := q == "" || Includes(hay, q);
    var tagOk := tag == "all" || HasTag(p.tags, tag);
    assert tagOk <==> (c.tag.None? || c.tag.value == "" || c.tag.value == "all" || c.tag.value in p.tags);
    qOk && tagOk
  }

  /** The search ignores the case of ASCII letters in the query. */
  lemma SearchIgnoresCase(p: Post, q: string, tag: Option<string>)
    ensures MatchesFilters(p, Controls(Some(q), tag)) == MatchesFilters(p, Controls(Some(ToLower(q)), tag))
  {
    ToLowerIdempotent(q);
  }

  /** Choosing the value "all" in the drop-down filters exactly as having no drop-down does. */
  lemma TagNamedAllMatchesEveryPost(p: Post, q: Option<string>)
    ensures MatchesFilters(p, Controls(q, Some("all"))) == MatchesFilters(p, Controls(q, None))
  {
  }

  /* ---------------------------------------------------------------- filter */

  /** `s.filter(keep)`: the elements `keep` accepts, as many times as `s` holds them, in the order of `s`. */
  function Filter(s: seq<Post>, keep: Post -> bool): (r: seq<Post>)
    ensures forall x :: multiset(r)[x] == if keep(x) then multiset(s)[x] else 0
    ensures IsSubsequence(r, s)
  {
    if |s| == 0 then []
    else
      var rest := Filter(s[1..], keep);
      var r := if keep(s[0]) then [s[0]] + rest else rest;
      FilterStep(s, keep, rest, r);
      r
  }

  lemma FilterStep(s: seq<Post>, keep: Post -> bool, rest: seq<Post>, r: seq<Post>)
    requires |s| > 0
    requires forall x :: multiset(rest)[x] == if keep(x) then multiset(s[1..])[x] else 0
    requires IsSubsequence(rest, s[1..])
    requires r == if keep(s[0]) then [s[0]] + rest else rest
    ensures forall x :: multiset(r)[x] == if keep(x) then multiset(s)[x] else 0
    ensures IsSubsequence(r, s)
  {
    assert s == [s[0]] + s[1..];
    assert multiset(s) == multiset{s[0]} + multiset(s[1..]);
    if keep(s[0]) {
      assert r[1..] == rest;
      assert multiset(r) == multiset{s[0]} + multiset(rest);
    }
  }

  /** The posts that pass `matchesFilters`, in their original order. */
  function FilterPosts(posts: seq<Post>, c: Controls): (r: seq<Post>)
    ensures forall x :: multiset(r)[x] == if MatchesFilters(x, c) then multiset(posts)[x] else 0
    ensures IsSubsequence(r, posts)
  {
    Filter(posts, p => MatchesFilters(p, c))
  }

  /** `a` can be obtained from `b` by deleting elements: the relative order is kept. */
  predicate IsSubsequence<T(==)>(a: seq<T>, b: seq<T>)
  {
    if |b| == 0 then |a| == 0
    else (|a| > 0 && a[0] == b[0] && IsSubsequence(a[1..], b[1..])) || IsSubsequence(a, b[1..])
  }

  /* ---------------------------------------------------------------- sort */

  /** The sort key: the post's date as a timestamp, 1970-01-01 when the date is missing. */
  function Key(p: Post): int
  {
    p.date.GetOr(0)
  }

  /** With the comparator of `renderGrid`, `a` may come before `b`. */
  predicate NotAfter(a: Post, b: Post, newest: bool)
  {
    if newest then Key(a) >= Key(b) else Key(a) <= Key(b)
  }

  predicate Ordered(s: seq<Post>, newest: bool)
  {
    forall i, j :: 0 <= i < j < |s| ==> NotAfter(s[i], s[j], newest)
  }

  /** The posts of `s` with sort key `k`, in the order of `s`. */
  function WithKey(s: seq<Post>, k: int): seq<Post>
  {
    if |s| == 0 then []
    else (if Key(s[0]) == k then [s[0]] else []) + WithKey(s[1..], k)
  }

  /** Inserts `x` before the first element it may precede; `x` precedes the equal keys, which keeps the sort stable. */
  function Insert(x: Post, t: seq<Post>, newest: bool): (r: seq<Post>)
    requires Ordered(t, newest)
    ensures multiset(r) == multiset(t) + multiset{x}
    ensures Ordered(r, newest)
  {
    if |t| == 0 then [x]
    else if NotAfter(x, t[0], newest) then [x] + t
    else
      var rest := Insert(x, t[1..], newest);
      assert t == [t[0]] + t[1..];
      OrderedCons(t[0], t[1..], x, rest, newest);
      [t[0]] + rest
  }

  lemma OrderedCons(h: Post, tail: seq<Post>, x: Post, rest: seq<Post>, newest: bool)
    requires Ordered([h] + tail, newest) && Ordered(rest, newest)
    requires NotAfter(h, x, newest)
    requires multiset(rest) == multiset(tail) + multiset{x}
    ensures Ordered([h] + rest, newest)
  {
    forall j | 0 <= j < |rest|
      ensures NotAfter(h, rest[j], newest)
    {
      assert rest[j] in multiset(rest);
      if rest[j] != x {
        assert rest[j] in multiset(tail);
        assert rest[j] in tail;
        var m :| 0 <= m < |tail| && tail[m] == rest[j];
        var ht := [h] + tail;
        assert ht[0] == h && ht[m + 1] == rest[j];
        assert NotAfter(ht[0], ht[m + 1], newest);
      }
    }
    var s := [h] + rest;
    forall i, j | 0 <= i < j < |s|
      ensures NotAfter(s[i], s[j], newest)
    {
      if i == 0 {
        assert s[j] == rest[j - 1];
      } else {
        assert s[i] == rest[i - 1] && s[j] == rest[j - 1];
      }
    }
  }

  lemma {:induction false} InsertWithKey(x: Post, t: seq<Post>, newest: bool, k: int)
    requires Ordered(t, newest)
    ensures WithKey(Insert(x, t, newest), k) == (if Key(x) == k then [x] else []) + WithKey(t, k)
  {
    if |t| == 0 {
    } else if NotAfter(x, t[0], newest) {
      assert ([x] + t)[1..] == t;
    } else {
      var rest := Insert(x, t[1..], newest);
      InsertWithKey(x, t[1..], newest, k);
      assert ([t[0]] + rest)[1..] == rest;
      var head: seq<Post> := if Key(t[0]) == k then [t[0]] else [];
      var mine: seq<Post> := if Key(x) == k then [x] else [];
      assert WithKey([t[0]] + rest, k) == head + (mine + WithKey(t[1..], k));
      assert WithKey(t, k) == head + WithKey(t[1..], k);
      if Key(t[0]) == k {
        assert mine == [];
        assert mine + WithKey(t[1..], k) == WithKey(t[1..], k);
        assert mine + (head + WithKey(t[1..], k)) == head + WithKey(t[1..], k);
      } else {
        assert head == [];
        assert head + (mine + WithKey(t[1..], k)) == mine + WithKey(t[1..], k);
        assert head + WithKey(t[1..], k) == WithKey(t[1..], k);
      }
    }
  }

  /**
   `filtered.slice().sort(...)` by date, newest first when `newest`. The sort of
   JavaScript is stable, so posts with the same date keep their relative order.
   */
  function SortByDate(s: seq<Post>, newest: bool): (r: seq<Post>)
    ensures multiset(r) == multiset(s)
    ensures Ordered(r, newest)
  {
    if |s| == 0 then []
    else
      assert s == [s[0]] + s[1..];
      Insert(s[0], SortByDate(s[1..], newest), newest)
  }

  /** Posts with equal dates appear in the sorted grid in the order they had before. */
  lemma {:induction false} SortIsStable(s: seq<Post>, newest: bool, k: int)
    ensures WithKey(SortByDate(s, newest), k) == WithKey(s, k)
  {
    if |s| > 0 {
      SortIsStable(s[1..], newest, k);
      InsertWithKey(s[0], SortByDate(s[1..], newest), newest, k);
    }
  }

  /** Stability for every date at once. */
  lemma SortIsStableAll(s: seq<Post>, newest: bool)
    ensures forall k :: WithKey(SortByDate(s, newest), k) == WithKey(s, k)
  {
    forall k
      ensures WithKey(SortByDate(s, newest), k) == WithKey(s, k)
    {
      SortIsStable(s, newest, k);
    }
  }

  /** What the grid shows: the "No posts found." card, or one card per post in this order. */
  datatype Grid = NoPosts | Cards(shown: seq<Post>)

  /** The filter-then-sort of `renderGrid`. */
  function RenderGrid(posts: seq<Post>, c: Controls, newest: bool): (r: Grid)
    ensures r.NoPosts? <==> forall k :: 0 <= k < |posts| ==> !MatchesFilters(posts[k], c)
    ensures r.Cards? ==>
      && Ordered(r.shown, newest)
      && (forall x :: multiset(r.shown)[x] == if MatchesFilters(x, c) then multiset(posts)[x] else 0)
      && forall k :: WithKey(r.shown, k) == WithKey(FilterPosts(posts, c), k)
  {
    var filtered := FilterPosts(posts, c);
    var ordered := SortByDate(filtered, newest);
    SortIsStableAll(filtered, newest);
    if |ordered| == 0 then
      assert forall k :: 0 <= k < |posts| ==> multiset(posts)[posts[k]] > 0;
      NoPosts
    else
      assert ordered[0] in multiset(filtered);
      Cards(ordered)
  }

  /** The page state `renderGrid` reads. */
  datatype View = View(posts: seq<Post>, controls: Controls, sortNewest: bool)

  /** The label of the sort button after a click. */
  function SortLabel(newest: bool): string
  {
    "Sort: " + (if newest then "Newest" else "Oldest")
  }

  /** The sort button: flips the order, relabels the button and re-renders; nothing else changes. */
  function ToggleSort(v: View): (r: (View, string))
    ensures r.0.sortNewest == !v.sortNewest
    ensures r.0.posts == v.posts && r.0.controls == v.controls
    ensures r.1 == SortLabel(r.0.sortNewest)
  {
    var v' := v.(sortNewest := !v.sortNewest);
    (v', SortLabel(v'.sortNewest))
  }

  /** Two clicks on the sort button give back the view the page started with. */
  lemma ToggleSortTwice(v: View)
    ensures ToggleSort(ToggleSort(v).0).0 == v
  {
  }

  /** After a click the grid is ordered the other way round. */
  lemma ToggleSortReorders(v: View)
    ensures var g := RenderGrid(v.posts, v.controls, ToggleSort(v).0.sortNewest);
      g.Cards? ==> Ordered(g.shown, !v.sortNewest)
  {
  }

  /* ---------------------------------------------------------------- tag drop-down */

  /**
   The order the tags are sorted in. `localeCompare` is replaced by the
   lexicographic order on character codes: a proper prefix comes first, and
   otherwise the first differing character decides.
   */
  predicate LexLess(a: string, b: string)
  {
    if |a| == 0 then |b| > 0
    else if |b| == 0 then false
    else if a[0] == b[0] then LexLess(a[1..], b[1..])
    else a[0] < b[0]
  }

  lemma {:induction false} LexLessIrreflexive(a: string)
    ensures !LexLess(a, a)
  {
    if |a| > 0 {
      LexLessIrreflexive(a[1..]);
    }
  }

  lemma {:induction false} LexLessTransitive(a: string, b: string, c: string)
    requires LexLess(a, b) && LexLess(b, c)
    ensures LexLess(a, c)
  {
    if |a| > 0 && a[0] == b[0] && b[0] == c[0] {
      LexLessTransitive(a[1..], b[1..], c[1..]);
    }
  }

  lemma {:induction false} LexLessTotal(a: string, b: string)
    requires a != b
    ensures LexLess(a, b) || LexLess(b, a)
  {
    if |a| > 0 && |b| > 0 && a[0] == b[0] {
      assert a == [a[0]] + a[1..] && b == [b[0]] + b[1..];
      LexLessTotal(a[1..], b[1..]);
    }
  }

  predicate StrictlySorted(s: seq<string>)
  {
    forall i, j :: 0 <= i < j < |s| ==> LexLess(s[i], s[j])
  }

  predicate NoDuplicates(s: seq<string>)
  {
    forall i, j :: 0 <= i < j < |s| ==> s[i] != s[j]
  }

  /** Every tag of every post, post by post, as `forEach` visits them. */
  function AllTags(posts: seq<Post>): (r: seq<string>)
    ensures forall t :: t in r <==> exists k :: 0 <= k < |posts| && t in posts[k].tags
  {
    if |posts| == 0 then []
    else
      var rest := AllTags(posts[1..]);
      assert forall k :: 1 <= k < |posts| ==> posts[k] == posts[1..][k - 1];
      posts[0].tags + rest
  }

  /** Adding the tags of `s` to a `Set` holding `seen`: the new ones are appended in first-seen order. */
  function AddToSet(seen: seq<string>, s: seq<string>): (r: seq<string>)
    requires NoDuplicates(seen)
    ensures NoDuplicates(r)
    ensures forall t :: t in r <==> t in seen || t in s
    decreases |s|
  {
    if |s| == 0 then seen
    else if s[0] in seen then AddToSet(seen, s[1..])
    else AddToSet(seen + [s[0]], s[1..])
  }

  /** Inserts a tag that is not yet in the list at its place in the order. */
  function InsertTag(x: string, t: seq<string>): (r: seq<string>)
    requires StrictlySorted(t) && x !in t
    ensures |r| == |t| + 1
    ensures forall y :: y in r <==> y == x || y in t
    ensures StrictlySorted(r)
  {
    if |t| == 0 then [x]
    else if LexLess(x, t[0]) then
      var r := [x] + t;
      forall i, j | 0 <= i < j < |r|
        ensures LexLess(r[i], r[j])
      {
        if i == 0 && j > 1 {
          LexLessTransitive(x, t[0], t[j - 1]);
        }
      }
      r
    else
      LexLessTotal(x, t[0]);
      var rest := InsertTag(x, t[1..]);
      var r := [t[0]] + rest;
      forall i, j | 0 <= i < j < |r|
        ensures LexLess(r[i], r[j])
      {
        if i == 0 {
          assert r[j] == rest[j - 1];
          if r[j] != x {
            assert r[j] in t[1..];
            var m :| 0 <= m < |t[1..]| && t[1..][m] == r[j];
            assert t[m + 1] == r[j];
          }
        } else {
          assert r[i] == rest[i - 1] && r[j] == rest[j - 1];
        }
      }
      r
  }

  /** Sorting the distinct tags: the same tags, strictly increasing. */
  function SortTags(s: seq<string>): (r: seq<string>)
    requires NoDuplicates(s)
    ensures |r| == |s|
    ensures forall t :: t in r <==> t in s
    ensures StrictlySorted(r)
  {
    if |s| == 0 then []
    else
      assert forall i :: 1 <= i < |s| ==> s[i] != s[0];
      InsertTag(s[0], SortTags(s[1..]))
  }

  /** The tags listed in the drop-down: each tag of some post exactly once, in increasing order. */
  function TagList(posts: seq<Post>): (r: seq<string>)
    ensures StrictlySorted(r)
    ensures forall t :: t in r <==> exists k :: 0 <= k < |posts| && t in posts[k].tags
  {
    SortTags(AddToSet([], AllTags(posts)))
  }

  /** Strictly increasing lists hold no tag twice. */
  lemma StrictlySortedDistinct(s: seq<string>)
    requires StrictlySorted(s)
    ensures NoDuplicates(s)
  {
    forall i, j | 0 <= i < j < |s|
      ensures s[i] != s[j]
    {
      if s[i] == s[j] {
        LexLessIrreflexive(s[i]);
      }
    }
  }

  /** One `<option>` of the tag drop-down: its `value` attribute and its text, both as written into the HTML. */
  datatype SelectOption = SelectOption(value: string, text: string)

  /**
   `buildTagOptions()`: the "All tags" option, then one option per listed tag
   whose value and text are the escaped tag. The browser decodes the value
   attribute, so choosing the option sets the drop-down's value to the tag itself.
   */
  function TagOptions(posts: seq<Post>): (r: seq<SelectOption>)
    ensures |r| == |TagList(posts)| + 1
    ensures r[0] == SelectOption("all", "All tags")
    ensures forall k :: 1 <= k < |r| ==> OptionOf(r[k], TagList(posts)[k - 1])
  {
    OptionsFor(TagList(posts))
  }

  /** "All tags", then one option per tag of `list`, in order. */
  function OptionsFor(list: seq<string>): (r: seq<SelectOption>)
    ensures |r| == |list| + 1
    ensures r[0] == SelectOption("all", "All tags")
    ensures forall k :: 1 <= k < |r| ==> OptionOf(r[k], list[k - 1])
  {
    var rest := TagOptionList(list);
    var r := [SelectOption("all", "All tags")] + rest;
    assert forall k :: 1 <= k < |r| ==> r[k] == rest[k - 1];
    r
  }

  /** One option per tag of `list`, in order. */
  function TagOptionList(list: seq<string>): (r: seq<SelectOption>)
    ensures |r| == |list|
    ensures forall k :: 0 <= k < |r| ==> OptionOf(r[k], list[k])
  {
    if |list| == 0 then []
    else
      var rest := TagOptionList(list[1..]);
      var r := [TagOption(list[0])] + rest;
      assert forall k :: 1 <= k < |r| ==> r[k] == rest[k - 1];
      r
  }

  /** `o` shows tag `t`: the same safe text as value and label, decoding to the tag. */
  predicate OptionOf(o: SelectOption, t: string)
  {
    o.value == o.text && Safe(o.value, Apos039) && Unescape(o.value, Apos039) == t
  }

  /** The option for one tag: the escaped tag as both value and text. */
  function TagOption(t: string): (o: SelectOption)
    ensures OptionOf(o, t)
  {
    SelectOption(EscapeHtml(Some(t)), EscapeHtml(Some(t)))
  }

  /**
   A post tagged "all" collides with the sentinel: the drop-down then offers,
   besides "All tags", an option whose value decodes to "all", and choosing it
   keeps every post the search keeps, tagged "all" or not.
   */
  lemma TagNamedAllCollides(posts: seq<Post>, j: int, q: Option<string>)
    requires 0 <= j < |posts| && "all" in posts[j].tags
    ensures exists k :: 1 <= k < |TagOptions(posts)| && Unescape(TagOptions(posts)[k].value, Apos039) == "all"
    ensures forall p :: MatchesFilters(p, Controls(q, Some("all"))) == MatchesFilters(p, Controls(q, None))
  {
    var list := TagList(posts);
    assert "all" in list;
    var i :| 0 <= i < |list| && list[i] == "all";
    assert Unescape(TagOptions(posts)[i + 1].value, Apos039) == "all";
  }

  /** The markup `buildTagOptions` assigns to the drop-down's `innerHTML`. */
  function OptionsHtml(options: seq<SelectOption>): string
  {
    if |options| == 0 then ""
    else "<option value=\"" + options[0].value + "\">" + options[0].text + "</option>" + OptionsHtml(options[1..])
  }
}

=== FILE: entities.dfy ===
/**
 HTML entity escaping as the site's scripts do it. `app.js` and `blog.js` chain
 five `replaceAll` calls, replacing `&` first; `post.js` makes a single
 regular-expression pass with a lookup table and spells the apostrophe `&#39;`
 where the other two write `&#039;`.

 The reference meaning of every escaper is `Escape`: the concatenation of the
 per-character images `EntityOf`. `Unescape` decodes the five entities again and
 is the partner of the round-trip lemma.
 */
module Entities {
  import opened JsString

  /** How the apostrophe entity is spelt. */
  datatype Apos = Apos039 | Apos39

  function AposEntity(a: Apos): (e: string)
    ensures |e| >= 5 && e[0] == '&' && e[1] == '#' && e[|e| - 1] == ';'
  {
    match a
    case Apos039 => "&#039;"
    case Apos39 => "&#39;"
  }

  /** The five characters HTML gives meaning to in text and attribute values. */
  predicate IsSpecial(c: char)
  {
    c == '&' || c == '<' || c == '>' || c == '"' || c == '\''
  }

  /** The image of one character: its entity for the five special characters, the character itself otherwise. */
  function EntityOf(c: char, a: Apos): string
  {
    if c == '&' then "&amp;"
    else if c == '<' then "&lt;"
    else if c == '>' then "&gt;"
    else if c == '"' then "&quot;"
    else if c == '\'' then AposEntity(a)
    else [c]
  }

  /** The per-character escape: the images of the characters of `s`, concatenated in order. */
  function Escape(s: string, a: Apos): string
  {
    if |s| == 0 then "" else EntityOf(s[0], a) + Escape(s[1..], a)
  }

  /** Escaping distributes over concatenation. */
  lemma {:induction false} EscapeConcat(s: string, t: string, a: Apos)
    ensures Escape(s + t, a) == Escape(s, a) + Escape(t, a)
  {
    if |s| == 0 {
      assert s + t == t;
    } else {
      EscapeConcat(s[1..], t, a);
      var st := s + t;
      assert st[1..] == s[1..] + t;
      var h := EntityOf(s[0], a);
      assert Escape(st, a) == h + Escape(s[1..] + t, a);
      ConcatAssoc(h, Escape(s[1..], a), Escape(t, a));
    }
  }

  /** Characters other than the five special ones pass through unchanged. */
  lemma {:induction false} EscapePlain(s: string, a: Apos)
    requires forall k :: 0 <= k < |s| ==> !IsSpecial(s[k])
    ensures Escape(s, a) == s
  {
    if |s| > 0 {
      EscapePlain(s[1..], a);
      assert s == [s[0]] + s[1..];
    }
  }

  /* ---------------------------------------------------------------- replaceAll chain */

  /** `s.replaceAll(c, rep)` with a one-character pattern: every occurrence of `c` becomes `rep`. */
  function ReplaceAll(s: string, c: char, rep: string): (r: string)
    ensures c !in s ==> r == s
  {
    if |s| == 0 then "" else (if s[0] == c then rep else [s[0]]) + ReplaceAll(s[1..], c, rep)
  }

  lemma {:induction false} ReplaceAllConcat(s: string, t: string, c: char, rep: string)
    ensures ReplaceAll(s + t, c, rep) == ReplaceAll(s, c, rep) + ReplaceAll(t, c, rep)
  {
    if |s| == 0 {
      assert s + t == t;
    } else {
      ReplaceAllConcat(s[1..], t, c, rep);
      var st := s + t;
      assert st[1..] == s[1..] + t;
      var h := if s[0] == c then rep else [s[0]];
      assert ReplaceAll(st, c, rep) == h + ReplaceAll(s[1..] + t, c, rep);
      ConcatAssoc(h, ReplaceAll(s[1..], c, rep), ReplaceAll(t, c, rep));
    }
  }

  /** The `app.js` and `blog.js` escape: `&`, `<`, `>`, `"`, `'` replaced in that order. */
  function Chained(s: string): string
  {
    var s1 := ReplaceAll(s, '&', "&amp;");
    var s2 := ReplaceAll(s1, '<', "&lt;");
    var s3 := ReplaceAll(s2, '>', "&gt;");
    var s4 := ReplaceAll(s3, '"', "&quot;");
    ReplaceAll(s4, '\'', "&#039;")
  }

  lemma ChainedConcat(s: string, t: string)
    ensures Chained(s + t) == Chained(s) + Chained(t)
  {
    var s1, t1 := ReplaceAll(s, '&', "&amp;"), ReplaceAll(t, '&', "&amp;");
    ReplaceAllConcat(s, t, '&', "&amp;");
    var s2, t2 := ReplaceAll(s1, '<', "&lt;"), ReplaceAll(t1, '<', "&lt;");
    ReplaceAllConcat(s1, t1, '<', "&lt;");
    var s3, t3 := ReplaceAll(s2, '>', "&gt;"), ReplaceAll(t2, '>', "&gt;");
    ReplaceAllConcat(s2, t2, '>', "&gt;");
    var s4, t4 := ReplaceAll(s3, '"', "&quot;"), ReplaceAll(t3, '"', "&quot;");
    ReplaceAllConcat(s3, t3, '"', "&quot;");
    ReplaceAllConcat(s4, t4, '\'', "&#039;");
  }

  lemma ReplaceAllOne(x: char, c: char, rep: string)
    ensures ReplaceAll([x], c, rep) == if x == c then rep else [x]
  {
    assert [x][1..] == "";
    var h := if x == c then rep else [x];
    assert ReplaceAll([x], c, rep) == h + ReplaceAll("", c, rep);
    assert h + "" == h;
  }

  /**
   One character through the chain. The entities introduced by a step contain
   none of the characters the later steps replace, which is why `&` has to go first.
   */
  lemma ChainedChar(c: char)
    ensures Chained([c]) == EntityOf(c, Apos039)
  {
    ReplaceAllOne(c, '&', "&amp;");
    if c == '&' {
      assert '<' !in "&amp;" && '>' !in "&amp;" && '"' !in "&amp;" && '\'' !in "&amp;";
    } else if c == '<' {
      ReplaceAllOne(c, '<', "&lt;");
      assert '>' !in "&lt;" && '"' !in "&lt;" && '\'' !in "&lt;";
    } else if c == '>' {
      ReplaceAllOne(c, '>', "&gt;");
      assert '"' !in "&gt;" && '\'' !in "&gt;";
    } else if c == '"' {
      ReplaceAllOne(c, '"', "&quot;");
      assert '\'' !in "&quot;";
    } else {
      ReplaceAllOne(c, '\'', "&#039;");
    }
  }

  /** The chained `replaceAll` escape equals the per-character map: nothing is escaped twice. */
  lemma {:induction false} ChainedIsPerChar(s: string)
    ensures Chained(s) == Escape(s, Apos039)
  {
    if |s| == 0 {
      assert Chained(s) == "";
    } else {
      ChainedIsPerChar(s[1..]);
      ChainedConcat([s[0]], s[1..]);
      ChainedChar(s[0]);
      assert s == [s[0]] + s[1..];
    }
  }

  /* ---------------------------------------------------------------- the order matters */

  /** The same five `replaceAll` calls with `&` moved to the end: first the other four, in their order. */
  function OthersFirst(s: string): string
  {
    var s1 := ReplaceAll(s, '<', "&lt;");
    var s2 := ReplaceAll(s1, '>', "&gt;");
    var s3 := ReplaceAll(s2, '"', "&quot;");
    ReplaceAll(s3, '\'', "&#039;")
  }

  /** ... then `&`. */
  function AmpersandLast(s: string): string
  {
    ReplaceAll(OthersFirst(s), '&', "&amp;")
  }

  /** The four characters whose entities a later `&` step would escape again. */
  predicate Redone(c: char)
  {
    c == '<' || c == '>' || c == '"' || c == '\''
  }

  lemma AmpersandLastConcat(s: string, t: string)
    ensures AmpersandLast(s + t) == AmpersandLast(s) + AmpersandLast(t)
  {
    var s1, t1 := ReplaceAll(s, '<', "&lt;"), ReplaceAll(t, '<', "&lt;");
    ReplaceAllConcat(s, t, '<', "&lt;");
    var s2, t2 := ReplaceAll(s1, '>', "&gt;"), ReplaceAll(t1, '>', "&gt;");
    ReplaceAllConcat(s1, t1, '>', "&gt;");
    var s3, t3 := ReplaceAll(s2, '"', "&quot;"), ReplaceAll(t2, '"', "&quot;");
    ReplaceAllConcat(s2, t2, '"', "&quot;");
    ReplaceAllConcat(s3, t3, '\'', "&#039;");
    ReplaceAllConcat(OthersFirst(s), OthersFirst(t), '&', "&amp;");
  }

  /** An entity made before the `&` step gets its leading `&` escaped again. */
  lemma AmpersandAgain(e: string)
    requires |e| > 0 && e[0] == '&' && '&' !in e[1..]
    ensures ReplaceAll(e, '&', "&amp;") == "&amp;" + e[1..]
  {
    assert e == ['&'] + e[1..];
    ReplaceAllConcat(['&'], e[1..], '&', "&amp;");
    ReplaceAllOne('&', '&', "&amp;");
  }

  /** The first four steps map a character to its image, except that `&` is still untouched. */
  lemma OthersFirstChar(c: char)
    ensures OthersFirst([c]) == if c == '&' then [c] else EntityOf(c, Apos039)
  {
    ReplaceAllOne(c, '<', "&lt;");
    if c == '<' {
      assert '>' !in "&lt;" && '"' !in "&lt;" && '\'' !in "&lt;";
    } else {
      ReplaceAllOne(c, '>', "&gt;");
      if c == '>' {
        assert '"' !in "&gt;" && '\'' !in "&gt;";
      } else {
        ReplaceAllOne(c, '"', "&quot;");
        if c == '"' {
          assert '\'' !in "&quot;";
        } else {
          ReplaceAllOne(c, '\'', "&#039;");
        }
      }
    }
  }

  /** One character through the reordered chain: the image of a redone character is four characters too long. */
  lemma AmpersandLastChar(c: char)
    ensures !Redone(c) ==> AmpersandLast([c]) == EntityOf(c, Apos039)
    ensures Redone(c) ==> AmpersandLast([c]) == "&amp;" + EntityOf(c, Apos039)[1..]
  {
    OthersFirstChar(c);
    var e := EntityOf(c, Apos039);
    if Redone(c) {
      assert OthersFirst([c]) == e;
      RedoneEntity(c);
      AmpersandAgain(e);
    } else {
      ReplaceAllOne(c, '&', "&amp;");
    }
  }

  /** The entity of a redone character has its only `&` in front. */
  lemma RedoneEntity(c: char)
    requires Redone(c)
    ensures var e := EntityOf(c, Apos039); |e| > 0 && e[0] == '&' && '&' !in e[1..]
  {
    if c == '<' {
      assert "&lt;"[1..] == "lt;";
    } else if c == '>' {
      assert "&gt;"[1..] == "gt;";
    } else if c == '"' {
      assert "&quot;"[1..] == "quot;";
    } else {
      assert "&#039;"[1..] == "#039;";
    }
  }

  /** The first character's share of the length difference: four for a redone character, none otherwise. */
  lemma AmpersandLastHead(s: string)
    requires |s| > 0
    ensures |AmpersandLast(s)| - |Escape(s, Apos039)|
         == |AmpersandLast(s[1..])| - |Escape(s[1..], Apos039)| + (if Redone(s[0]) then 4 else 0)
  {
    assert s == [s[0]] + s[1..];
    AmpersandLastConcat([s[0]], s[1..]);
    AmpersandLastChar(s[0]);
  }

  /** The reordered chain never comes out shorter, and comes out longer once a redone character occurs. */
  lemma {:induction false} AmpersandLastLength(s: string)
    ensures |AmpersandLast(s)| >= |Escape(s, Apos039)|
    ensures (exists k :: 0 <= k < |s| && Redone(s[k])) ==> |AmpersandLast(s)| > |Escape(s, Apos039)|
  {
    if |s| == 0 {
      assert AmpersandLast(s) == "";
    } else {
      var t := s[1..];
      AmpersandLastLength(t);
      AmpersandLastHead(s);
      if !Redone(s[0]) && exists k :: 0 <= k < |s| && Redone(s[k]) {
        var k :| 0 <= k < |s| && Redone(s[k]);
        assert Redone(t[k - 1]);
      }
    }
  }

  /** Without a redone character the order does not matter. */
  lemma {:induction false} AmpersandLastAgrees(s: string)
    requires forall k :: 0 <= k < |s| ==> !Redone(s[k])
    ensures AmpersandLast(s) == Escape(s, Apos039)
  {
    if |s| == 0 {
      assert AmpersandLast(s) == "";
    } else {
      var t := s[1..];
      assert forall k :: 0 <= k < |t| ==> t[k] == s[k + 1];
      AmpersandLastAgrees(t);
      assert s == [s[0]] + t;
      AmpersandLastConcat([s[0]], t);
      AmpersandLastChar(s[0]);
    }
  }

  /**
   With `&` replaced last, the chain agrees with the per-character escape exactly
   on the text holding none of `<`, `>`, `"`, `'`; on any other text each of those
   comes out escaped twice, and the output is longer.
   */
  lemma AmpersandLastDoubleEscapes(s: string)
    ensures AmpersandLast(s) == Escape(s, Apos039) <==> forall k :: 0 <= k < |s| ==> !Redone(s[k])
    ensures (exists k :: 0 <= k < |s| && Redone(s[k])) ==> |AmpersandLast(s)| > |Escape(s, Apos039)|
  {
    AmpersandLastLength(s);
    if forall k :: 0 <= k < |s| ==> !Redone(s[k]) {
      AmpersandLastAgrees(s);
    }
  }

  /* ---------------------------------------------------------------- decoding */

  /** Decodes the five entities (apostrophe spelt as `a` says) back to characters; anything else is copied. */
  function Unescape(t: string, a: Apos): string
    decreases |t|
  {
    if |t| == 0 then ""
    else if StartsWith(t, "&amp;") then "&" + Unescape(t[5..], a)
    else if StartsWith(t, "&lt;") then "<" + Unescape(t[4..], a)
    else if StartsWith(t, "&gt;") then ">" + Unescape(t[4..], a)
    else if StartsWith(t, "&quot;") then "\"" + Unescape(t[6..], a)
    else if StartsWith(t, AposEntity(a)) then "'" + Unescape(t[|AposEntity(a)|..], a)
    else [t[0]] + Unescape(t[1..], a)
  }

  lemma StartsWithConcat(e: string, rest: string, p: string)
    requires |p| <= |e|
    ensures StartsWith(e + rest, p) <==> StartsWith(e, p)
  {
    assert (e + rest)[..|p|] == e[..|p|];
  }

  /** Decoding the image of one character yields that character. */
  lemma UnescapeEntity(c: char, rest: string, a: Apos)
    ensures Unescape(EntityOf(c, a) + rest, a) == [c] + Unescape(rest, a)
  {
    var e := EntityOf(c, a);
    var t := e + rest;
    if c == '&' {
      assert StartsWith(t, "&amp;");
      assert t[5..] == rest;
    } else if c == '<' {
      assert t[1] == 'l';
      assert !StartsWith(t, "&amp;");
      assert StartsWith(t, "&lt;");
      assert t[4..] == rest;
    } else if c == '>' {
      assert t[1] == 'g';
      assert !StartsWith(t, "&amp;") && !StartsWith(t, "&lt;");
      assert StartsWith(t, "&gt;");
      assert t[4..] == rest;
    } else if c == '"' {
      assert t[1] == 'q';
      assert !StartsWith(t, "&amp;") && !StartsWith(t, "&lt;") && !StartsWith(t, "&gt;");
      assert StartsWith(t, "&quot;");
      assert t[6..] == rest;
    } else if c == '\'' {
      assert t[1] == '#';
      assert !StartsWith(t, "&amp;") && !StartsWith(t, "&lt;") && !StartsWith(t, "&gt;");
      assert !StartsWith(t, "&quot;");
      StartsWithConcat(e, rest, AposEntity(a));
      assert t[|AposEntity(a)|..] == rest;
    } else {
      assert t[0] == c && c != '&';
      assert !StartsWith(t, "&amp;") && !StartsWith(t, "&lt;") && !StartsWith(t, "&gt;");
      assert !StartsWith(t, "&quot;") && !StartsWith(t, AposEntity(a));
      assert t[1..] == rest;
    }
  }

  /** Decoding undoes escaping, so escaping loses nothing and two inputs never escape alike. */
  lemma {:induction false} EscapeRoundTrip(s: string, a: Apos)
    ensures Unescape(Escape(s, a), a) == s
  {
    if |s| > 0 {
      EscapeRoundTrip(s[1..], a);
      UnescapeEntity(s[0], Escape(s[1..], a), a);
      assert s == [s[0]] + s[1..];
    }
  }

  /* ---------------------------------------------------------------- safety */

  /** The text from index `i` of `t` begins with one of the five entities. */
  predicate EntityAt(t: string, i: int, a: Apos)
    requires 0 <= i <= |t|
  {
    var u := t[i..];
    StartsWith(u, "&amp;") || StartsWith(u, "&lt;") || StartsWith(u, "&gt;")
    || StartsWith(u, "&quot;") || StartsWith(u, AposEntity(a))
  }

  /** No `<`, `>`, `"` or `'` is left raw, and every `&` opens one of the five entities. */
  predicate Safe(t: string, a: Apos)
  {
    && '<' !in t && '>' !in t && '"' !in t && '\'' !in t
    && forall i :: 0 <= i < |t| && t[i] == '&' ==> EntityAt(t, i, a)
  }

  /** No raw `<`, `>`, `"` or `'` and no `&` past the first character. */
  predicate Clean(e: string)
  {
    forall k :: 0 <= k < |e| ==> e[k] != '<' && e[k] != '>' && e[k] != '"' && e[k] != '\'' && (k > 0 ==> e[k] != '&')
  }

  lemma EntityOfClean(c: char, a: Apos)
    ensures |EntityOf(c, a)| > 0 && Clean(EntityOf(c, a))
  {
  }

  lemma EntityOfOpens(c: char, a: Apos)
    requires EntityOf(c, a)[0] == '&'
    ensures EntityAt(EntityOf(c, a), 0, a)
  {
    var e := EntityOf(c, a);
    assert e[0..] == e;
  }

  /** The image of a character holds none of the four raw characters, and an `&` only where it opens an entity. */
  lemma EntityOfShape(c: char, a: Apos)
    ensures var e := EntityOf(c, a);
      && |e| > 0 && '&' !in e[1..]
      && '<' !in e && '>' !in e && '"' !in e && '\'' !in e
      && (e[0] == '&' ==> EntityAt(e, 0, a))
  {
    var e := EntityOf(c, a);
    EntityOfClean(c, a);
    if e[0] == '&' { EntityOfOpens(c, a); }
    assert forall k :: 0 <= k < |e| - 1 ==> e[1..][k] == e[k + 1];
  }

  lemma StartsWithExtend(e: string, rest: string, p: string)
    requires StartsWith(e, p)
    ensures StartsWith(e + rest, p)
  {
    assert (e + rest)[..|p|] == e[..|p|];
  }

  lemma EntityAtExtend(e: string, rest: string, a: Apos)
    requires EntityAt(e, 0, a)
    ensures EntityAt(e + rest, 0, a)
  {
    assert e[0..] == e && (e + rest)[0..] == e + rest;
    if StartsWith(e, "&amp;") {
      StartsWithExtend(e, rest, "&amp;");
    } else if StartsWith(e, "&lt;") {
      StartsWithExtend(e, rest, "&lt;");
    } else if StartsWith(e, "&gt;") {
      StartsWithExtend(e, rest, "&gt;");
    } else if StartsWith(e, "&quot;") {
      StartsWithExtend(e, rest, "&quot;");
    } else {
      StartsWithExtend(e, rest, AposEntity(a));
    }
  }

  lemma SafePrepend(c: char, rest: string, a: Apos)
    requires Safe(rest, a)
    ensures Safe(EntityOf(c, a) + rest, a)
  {
    var e := EntityOf(c, a);
    EntityOfShape(c, a);
    var t := e + rest;
    assert forall i :: 0 < i < |e| ==> t[i] == e[1..][i - 1];
    forall i | 0 <= i < |t| && t[i] == '&'
      ensures EntityAt(t, i, a)
    {
      if i == 0 {
        EntityAtExtend(e, rest, a);
      } else if i >= |e| {
        assert t[i..] == rest[i - |e|..];
        assert EntityAt(rest, i - |e|, a);
      }
    }
  }

  /** The per-character escape is safe to place in HTML text and in a quoted attribute value. */
  lemma {:induction false} EscapeIsSafe(s: string, a: Apos)
    ensures Safe(Escape(s, a), a)
  {
    if |s| > 0 {
      EscapeIsSafe(s[1..], a);
      SafePrepend(s[0], Escape(s[1..], a), a);
    }
  }

  lemma PrefixCancel(e: string, x: string, y: string)
    ensures e + x == e + y <==> x == y
  {
    if e + x == e + y {
      assert x == (e + x)[|e|..];
      assert y == (e + y)[|e|..];
    }
  }

  /** The two apostrophe spellings give the same output exactly when there is no apostrophe to escape. */
  lemma {:induction false} AposSpellingsAgree(s: string)
    ensures Escape(s, Apos39) == Escape(s, Apos039) <==> '\'' !in s
  {
    if |s| > 0 {
      AposSpellingsAgree(s[1..]);
      var e39, e039 := EntityOf(s[0], Apos39), EntityOf(s[0], Apos039);
      var r39, r039 := Escape(s[1..], Apos39), Escape(s[1..], Apos039);
      if s[0] == '\'' {
        assert (e39 + r39)[2] == '3' && (e039 + r039)[2] == '0';
      } else {
        assert e39 == e039;
        PrefixCancel(e39, r39, r039);
      }
    }
  }
}

=== FILE: escapers.dfy ===
/** The `escapeHtml` of `app.js`: a `null` or `undefined` input becomes the empty string, then five chained `replaceAll` calls. */
module App {
  import opened Wrappers
  import opened Entities

  /**
   `escapeHtml(str)`. Because `&` is replaced first, the chain equals the
   per-character map, so no entity it introduces is escaped a second time; the
   result is safe in HTML text and quoted attributes and decodes back to the input.
   */
  function EscapeHtml(str: Option<string>): (r: string)
    ensures str.None? ==> r == ""
    ensures r == Escape(str.GetOr(""), Apos039)
    ensures Safe(r, Apos039)
    ensures Unescape(r, Apos039) == str.GetOr("")
  {
    var s := str.GetOr("");
    ChainedIsPerChar(s);
    EscapeIsSafe(s, Apos039);
    EscapeRoundTrip(s, Apos039);
    Chained(s)
  }
}

/** The `escapeHtml` of `post.js`: one global regular-expression pass over `[&<>"']` with a lookup table. */
module Post {
  import opened Wrappers
  import opened Entities

  /**
   `escapeHtml(s)`: the replace callback runs once per matched character, left to
   right, and everything between matches is copied, so the output is the
   concatenation of the per-character images with the apostrophe spelt `&#39;`.
   */
  method EscapeHtml(s: Option<string>) returns (r: string)
    ensures s.None? ==> r == ""
    ensures r == Escape(s.GetOr(""), Apos39)
    ensures Safe(r, Apos39)
    ensures Unescape(r, Apos39) == s.GetOr("")
  {
    var t := s.GetOr("");
    r := "";
    var i := 0;
    while i < |t|
      invariant 0 <= i <= |t|
      invariant r == Escape(t[..i], Apos39)
    {
      var piece := if IsSpecial(t[i]) then EntityOf(t[i], Apos39) else [t[i]];
      EscapeConcat(t[..i], [t[i]], Apos39);
      assert t[..i + 1] == t[..i] + [t[i]];
      r := r + piece;
      i := i + 1;
    }
    assert t[..i] == t;
    EscapeIsSafe(t, Apos39);
    EscapeRoundTrip(t, Apos39);
  }
}

=== FILE: js_string.dfy ===
/**
 The handful of JavaScript string primitives the site's scripts use: `trim`,
 `toLowerCase`, `startsWith`, `includes`, `split` and `join`. A JavaScript
 string is modelled as a `seq<char>`.
 */
module JsString {

  /** The characters `String.prototype.trim` removes and the regular-expression class `\s` matches. */
  predicate IsSpace(c: char)
  {
    || c == '\t' || c == '\n' || c == '\U{000B}' || c == '\U{000C}' || c == '\r' || c == ' '
    || c == '\U{00A0}' || c == '\U{1680}' || ('\U{2000}' <= c <= '\U{200A}')
    || c == '\U{2028}' || c == '\U{2029}' || c == '\U{202F}' || c == '\U{205F}'
    || c == '\U{3000}' || c == '\U{FEFF}'
  }

  /** `s.startsWith(prefix)` */
  predicate StartsWith(s: string, prefix: string)
  {
    |prefix| <= |s| && s[..|prefix|] == prefix
  }

  /** A sequence is its prefix followed by the rest. */
  lemma TakeDrop<T>(s: seq<T>, n: nat)
    requires n <= |s|
    ensures s[..n] + s[n..] == s
  {
  }

  /** A non-empty sequence is its first element followed by the rest. */
  lemma HeadTail<T>(s: seq<T>)
    requires |s| > 0
    ensures [s[0]] + s[1..] == s
  {
  }

  /** Concatenation is associative (stated once so proofs need not rediscover it). */
  lemma ConcatAssoc<T>(x: seq<T>, y: seq<T>, z: seq<T>)
    ensures x + (y + z) == (x + y) + z
  {
  }

  /* ---------------------------------------------------------------- trim */

  /** `s.trimStart()`: drops the leading white space and nothing else. */
  function TrimStart(s: string): (r: string)
    ensures |r| <= |s| && r == s[|s| - |r|..]
    ensures forall k :: 0 <= k < |s| - |r| ==> IsSpace(s[k])
    ensures |r| > 0 ==> !IsSpace(r[0])
  {
    if |s| > 0 && IsSpace(s[0]) then TrimStart(s[1..]) else s
  }

  /** `s.trimEnd()`: drops the trailing white space and nothing else. */
  function TrimEnd(s: string): (r: string)
    ensures |r| <= |s| && r == s[..|r|]
    ensures forall k :: |r| <= k < |s| ==> IsSpace(s[k])
    ensures |r| > 0 ==> !IsSpace(r[|r| - 1])
  {
    if |s| > 0 && IsSpace(s[|s| - 1]) then TrimEnd(s[..|s| - 1]) else s
  }

  /** `r` is the slice `s[i..i + |r|]` and everything of `s` outside that slice is white space. */
  predicate TrimmedAt(s: string, r: string, i: int)
  {
    && 0 <= i <= i + |r| <= |s|
    && r == s[i..i + |r|]
    && (forall k :: 0 <= k < i ==> IsSpace(s[k]))
    && (forall k :: i + |r| <= k < |s| ==> IsSpace(s[k]))
  }

  /**
   `s.trim()`: a slice of `s` that neither starts nor ends with white space and
   outside of which `s` is all white space; empty exactly when `s` is all white space.
   */
  function Trim(s: string): (r: string)
    ensures exists i :: TrimmedAt(s, r, i)
    ensures |r| > 0 ==> !IsSpace(r[0]) && !IsSpace(r[|r| - 1])
  {
    var a := TrimStart(s);
    var r := TrimEnd(a);
    PrefixOfSuffix(s, a, r);
    assert TrimmedAt(s, r, |s| - |a|);
    r
  }

  /** A prefix `r` of a suffix `a` of `s` is the slice of `s` starting where `a` does. */
  lemma PrefixOfSuffix(s: string, a: string, r: string)
    requires |a| <= |s| && a == s[|s| - |a|..]
    requires |r| <= |a| && r == a[..|r|]
    ensures r == s[|s| - |a|..|s| - |a| + |r|]
    ensures forall k :: |s| - |a| <= k < |s| ==> s[k] == a[k - (|s| - |a|)]
  {
  }

  /* ---------------------------------------------------------------- case */

  /** Lower-casing of one character; only the ASCII letters are mapped. */
  function LowerChar(c: char): char
  {
    if 'A' <= c <= 'Z' then (c as int + 32) as char else c
  }

  /** `s.toLowerCase()` on the ASCII letters: position by position, no upper-case ASCII letter left. */
  function ToLower(s: string): (r: string)
    ensures |r| == |s|
    ensures forall k :: 0 <= k < |r| ==> r[k] == LowerChar(s[k]) && !('A' <= r[k] <= 'Z')
  {
    seq(|s|, k requires 0 <= k < |s| => LowerChar(s[k]))
  }

  /* ---------------------------------------------------------------- includes */

  /** `q` occurs in `hay` starting at index `i`. */
  predicate OccursAt(hay: string, q: string, i: int)
  {
    0 <= i && i + |q| <= |hay| && hay[i..i + |q|] == q
  }

  lemma OccursShift(hay: string, q: string, i: int)
    requires |hay| > 0 && i >= 0
    ensures OccursAt(hay, q, i + 1) <==> OccursAt(hay[1..], q, i)
  {
    if i + 1 + |q| <= |hay| {
      assert hay[i + 1..i + 1 + |q|] == hay[1..][i..i + |q|];
    }
  }

  /** `hay.includes(q)`: true exactly when `q` occurs somewhere in `hay` (the empty string occurs everywhere). */
  function Includes(hay: string, q: string): (r: bool)
    ensures r <==> exists i :: OccursAt(hay, q, i)
    decreases |hay|
  {
    if StartsWith(hay, q) then
      assert OccursAt(hay, q, 0);
      true
    else if |hay| == 0 then
      false
    else
      var rest := Includes(hay[1..], q);
      IncludesStep(hay, q, rest);
      rest
  }

  lemma IncludesStep(hay: string, q: string, rest: bool)
    requires |hay| > 0 && !StartsWith(hay, q)
    requires rest <==> exists i :: OccursAt(hay[1..], q, i)
    ensures rest <==> exists i :: OccursAt(hay, q, i)
  {
    if rest {
      var i :| OccursAt(hay[1..], q, i);
      OccursShift(hay, q, i);
    } else {
      forall i | OccursAt(hay, q, i)
        ensures false
      {
        assert i != 0;
        OccursShift(hay, q, i - 1);
      }
    }
  }

  /* ---------------------------------------------------------------- split / join */

  /** `s.split(sep)` for a one-character separator: never empty, and no piece holds the separator. */
  function Split(s: string, sep: char): (r: seq<string>)
    ensures |r| >= 1
    ensures forall k :: 0 <= k < |r| ==> sep !in r[k]
  {
    if |s| == 0 then [""]
    else
      var rest := Split(s[1..], sep);
      if s[0] == sep then [""] + rest else [[s[0]] + rest[0]] + rest[1..]
  }

  /** `parts.join(sep)` */
  function Join(parts: seq<string>, sep: string): string
  {
    if |parts| == 0 then ""
    else if |parts| == 1 then parts[0]
    else parts[0] + sep + Join(parts[1..], sep)
  }

  /** Splitting and joining back with the same separator gives the original string. */
  lemma {:induction false} JoinSplit(s: string, sep: char)
    ensures Join(Split(s, sep), [sep]) == s
  {
    if |s| > 0 {
      var rest := Split(s[1..], sep);
      JoinSplit(s[1..], sep);
      if s[0] == sep {
        assert Split(s, sep) == [""] + rest;
        assert ([""] + rest)[1..] == rest;
      } else {
        var r := [[s[0]] + rest[0]] + rest[1..];
        assert Split(s, sep) == r;
        if |rest| > 1 {
          assert r[1..] == rest[1..];
          assert Join(rest, [sep]) == rest[0] + [sep] + Join(rest[1..], [sep]);
        }
        assert s == [s[0]] + s[1..];
      }
    }
  }

  /** A separator-free prefix glues onto the first piece of the rest. */
  lemma {:induction false} SplitPrefix(x: string, t: string, sep: char)
    requires sep !in x
    ensures Split(x + t, sep) == [x + Split(t, sep)[0]] + Split(t, sep)[1..]
  {
    if |x| > 0 {
      SplitPrefix(x[1..], t, sep);
      assert (x + t)[1..] == x[1..] + t;
      assert (x + t)[0] == x[0];
      assert [x[0]] + (x[1..] + Split(t, sep)[0]) == x + Split(t, sep)[0];
    } else {
      assert x + t == t;
      assert x + Split(t, sep)[0] == Split(t, sep)[0];
      assert Split(t, sep) == [Split(t, sep)[0]] + Split(t, sep)[1..];
    }
  }

  /** Joining separator-free pieces and splitting again gives the pieces back. */
  lemma {:induction false} SplitJoin(parts: seq<string>, sep: char)
    requires |parts| >= 1
    requires forall k :: 0 <= k < |parts| ==> sep !in parts[k]
    ensures Split(Join(parts, [sep]), sep) == parts
  {
    if |parts| == 1 {
      SplitPrefix(parts[0], "", sep);
      assert parts[0] + "" == parts[0];
    } else {
      var j := Join(parts[1..], [sep]);
      SplitJoin(parts[1..], sep);
      assert Join(parts, [sep]) == parts[0] + ([sep] + j);
      SplitPrefix(parts[0], [sep] + j, sep);
      assert ([sep] + j)[1..] == j;
      assert Split([sep] + j, sep) == [""] + parts[1..];
      assert parts[0] + "" == parts[0];
      assert parts == [parts[0]] + parts[1..];
    }
  }
}

=== FILE: markdown.dfy ===
/**
 `renderMarkdownLite` and `linkify` of `blog.js`. The renderer reads the text
 line by line with one bit of state, whether a `<ul>` is open. Its meaning is
 stated on `Blocks`, a list of HTML blocks, and `Serialize` turns the blocks into
 the markup the script builds.
 */
module Markdown {
  import opened Wrappers
  import opened JsString
  import opened Entities

  /* ---------------------------------------------------------------- linkify */

  /** A character the URL pattern `[^\s<]` accepts. */
  predicate UrlChar(c: char)
  {
    !IsSpace(c) && c != '<'
  }

  /** The length of the `https?://` the text starts with, or 0. */
  function SchemeLength(h: string): (n: nat)
    ensures n == 0 || n == 7 || n == 8
    ensures n <= |h|
  {
    if StartsWith(h, "https://") then 8
    else if StartsWith(h, "http://") then 7
    else 0
  }

  /** The length of the longest prefix of URL characters. */
  function RunLength(h: string): (n: nat)
    ensures n <= |h|
    ensures forall k :: 0 <= k < n ==> UrlChar(h[k])
    ensures n == |h| || !UrlChar(h[n])
  {
    if |h| == 0 || !UrlChar(h[0]) then 0 else 1 + RunLength(h[1..])
  }

  /**
   The length of the match of `https?:\/\/[^\s<]+` at the start of `h`, 0 when
   there is none: the scheme, then the longest non-empty run of URL characters.
   */
  function UrlAt(h: string): (n: nat)
    ensures n <= |h|
    ensures n > 0 ==>
      && 0 < SchemeLength(h) < n
      && (forall k :: SchemeLength(h) <= k < n ==> UrlChar(h[k]))
      && (n == |h| || !UrlChar(h[n]))
    ensures n == 0 ==> SchemeLength(h) == 0 || SchemeLength(h) == |h| || !UrlChar(h[SchemeLength(h)])
  {
    var p := SchemeLength(h);
    if p == 0 then 0
    else
      var k := RunLength(h[p..]);
      if k == 0 then 0 else p + k
  }

  const HrefStart := "a href=\""
  const HrefEnd := "\" target=\"_blank\" rel=\"noreferrer\""

  /** The anchor `linkify` puts in place of a URL: the URL is both the target and the text. */
  function Anchor(url: string): string
  {
    "<" + HrefStart + url + HrefEnd + ">" + url + "</a>"
  }

  /** Drops the text up to and including the first `>`; all of it when there is none. */
  function AfterTag(t: string): (r: string)
    ensures |r| <= |t|
  {
    if |t| == 0 then ""
    else if t[0] == '>' then t[1..]
    else AfterTag(t[1..])
  }

  /** The text of some markup with the tags taken out: every `<` up to the next `>` is dropped. */
  function StripTags(t: string): string
    decreases |t|
  {
    if |t| == 0 then ""
    else if t[0] == '<' then StripTags(AfterTag(t[1..]))
    else [t[0]] + StripTags(t[1..])
  }

  lemma {:induction false} AfterTagSkips(body: string, rest: string)
    requires '>' !in body
    ensures AfterTag(body + ">" + rest) == rest
  {
    if |body| == 0 {
      assert body + ">" + rest == ">" + rest;
    } else {
      AfterTagSkips(body[1..], rest);
      assert (body + ">" + rest)[1..] == body[1..] + ">" + rest;
    }
  }

  lemma {:induction false} StripPlain(u: string, rest: string)
    requires '<' !in u
    ensures StripTags(u + rest) == u + StripTags(rest)
  {
    if |u| == 0 {
      assert u + rest == rest;
    } else {
      StripPlain(u[1..], rest);
      assert (u + rest)[1..] == u[1..] + rest;
      assert u == [u[0]] + u[1..];
      ConcatAssoc([u[0]], u[1..], StripTags(rest));
    }
  }

  lemma StripTag(body: string, rest: string)
    requires '>' !in body
    ensures StripTags("<" + body + ">" + rest) == StripTags(rest)
  {
    var t := "<" + body + ">" + rest;
    assert t[1..] == body + ">" + rest;
    AfterTagSkips(body, rest);
  }

  /** The opening tag of an anchor holds no `>` besides the one that ends it. */
  lemma AnchorBody(url: string)
    requires '>' !in url
    ensures '>' !in HrefStart + url + HrefEnd
  {
    assert '>' !in HrefStart && '>' !in HrefEnd;
  }

  lemma AnchorParts(url: string, rest: string)
    ensures Anchor(url) + rest == "<" + (HrefStart + url + HrefEnd) + ">" + (url + ("<" + "/a" + ">" + rest))
  {
  }

  /** Stripping the tags of an anchor leaves its URL. */
  lemma StripAnchor(url: string, rest: string)
    requires '<' !in url && '>' !in url
    ensures StripTags(Anchor(url) + rest) == url + StripTags(rest)
  {
    var body := HrefStart + url + HrefEnd;
    AnchorBody(url);
    var closing := "<" + "/a" + ">" + rest;
    AnchorParts(url, rest);
    StripTag(body, url + closing);
    StripPlain(url, closing);
    StripTag("/a", rest);
  }

  /**
   `linkify(html)`: every match of the URL pattern, scanning left to right, is
   replaced by its anchor and all other text is copied.
   */
  function Linkify(h: string): string
    decreases |h|
  {
    if |h| == 0 then ""
    else
      var n := UrlAt(h);
      if n > 0 then Anchor(h[..n]) + Linkify(h[n..])
      else [h[0]] + Linkify(h[1..])
  }

  /** Text in which no URL starts comes back unchanged. */
  lemma {:induction false} LinkifyWithoutUrl(h: string)
    requires forall i :: 0 <= i < |h| ==> UrlAt(h[i..]) == 0
    ensures Linkify(h) == h
    decreases |h|
  {
    if |h| > 0 {
      assert h[0..] == h;
      forall i | 0 <= i < |h| - 1
        ensures UrlAt(h[1..][i..]) == 0
      {
        assert h[1..][i..] == h[i + 1..];
      }
      LinkifyWithoutUrl(h[1..]);
      LinkifyChar(h);
      assert h == [h[0]] + h[1..];
    }
  }

  /** The first turn of `linkify` when a URL starts the text: its anchor. */
  lemma LinkifyUrl(h: string, n: nat)
    requires |h| > 0 && n == UrlAt(h) && n > 0
    ensures Linkify(h) == Anchor(h[..n]) + Linkify(h[n..])
  {
  }

  /** The first turn of `linkify` when no URL starts the text: its first character. */
  lemma LinkifyChar(h: string)
    requires |h| > 0 && UrlAt(h) == 0
    ensures Linkify(h) == [h[0]] + Linkify(h[1..])
  {
  }

  /** No URL starts at any of the first `i` positions. */
  predicate NoUrlBefore(h: string, i: nat)
    requires i <= |h|
  {
    forall j :: 0 <= j < i ==> UrlAt(h[j..]) == 0
  }

  lemma NoUrlTail(h: string, i: nat)
    requires 0 < i <= |h| && NoUrlBefore(h, i)
    ensures UrlAt(h) == 0 && NoUrlBefore(h[1..], i - 1)
  {
    assert h[0..] == h;
    forall j | 0 <= j < i - 1
      ensures UrlAt(h[1..][j..]) == 0
    {
      assert h[1..][j..] == h[j + 1..];
    }
  }

  /** Text before the first URL is copied as it stands. */
  lemma {:induction false} LinkifyPrefix(h: string, i: nat)
    requires i <= |h| && NoUrlBefore(h, i)
    ensures Linkify(h) == h[..i] + Linkify(h[i..])
    decreases i
  {
    if i == 0 {
      assert h[0..] == h && h[..0] + Linkify(h) == Linkify(h);
    } else {
      var t := h[1..];
      NoUrlTail(h, i);
      LinkifyPrefix(t, i - 1);
      LinkifyChar(h);
      HeadSlices(h, i);
      ConcatAssoc([h[0]], t[..i - 1], Linkify(h[i..]));
    }
  }

  lemma HeadSlices(h: string, i: nat)
    requires 0 < i <= |h|
    ensures h[1..][i - 1..] == h[i..] && [h[0]] + h[1..][..i - 1] == h[..i]
  {
  }

  /** The first URL of the text, at `i`, is the first thing replaced: by its anchor. */
  lemma LinkifyFirstUrl(h: string, i: nat)
    requires i < |h| && UrlAt(h[i..]) > 0 && NoUrlBefore(h, i)
    ensures var n := UrlAt(h[i..]);
      Linkify(h) == h[..i] + Anchor(h[i..][..n]) + Linkify(h[i..][n..])
  {
    var u := h[i..];
    var n := UrlAt(u);
    LinkifyPrefix(h, i);
    LinkifyUrl(u, n);
    ConcatAssoc(h[..i], Anchor(u[..n]), Linkify(u[n..]));
  }

  /**
   On text without `<`, linkifying changes nothing exactly when no URL starts
   anywhere in it: an anchor always brings a `<` with it.
   */
  lemma {:induction false} LinkifyUnchangedIff(h: string)
    requires '<' !in h
    ensures Linkify(h) == h <==> forall i :: 0 <= i < |h| ==> UrlAt(h[i..]) == 0
    decreases |h|
  {
    if forall i :: 0 <= i < |h| ==> UrlAt(h[i..]) == 0 {
      LinkifyWithoutUrl(h);
    } else if |h| > 0 && Linkify(h) == h {
      assert h[0..] == h;
      assert UrlAt(h) == 0 by {
        if UrlAt(h) > 0 {
          LinkifyUrl(h, UrlAt(h));
          assert false;
        }
      }
      LinkifyChar(h);
      assert Linkify(h[1..]) == h[1..];
      NotInSlice(h, '<', 1);
      LinkifyUnchangedIff(h[1..]);
      forall i | 0 <= i < |h|
        ensures UrlAt(h[i..]) == 0
      {
        if i > 0 {
          assert h[1..][i - 1..] == h[i..];
        }
      }
      assert false;
    }
  }

  /**
   On text without `<` or `>`, which includes all escaped text, the anchors are
   the only thing `linkify` adds: taking the tags out again gives the input back.
   */
  lemma {:induction false} LinkifyAddsOnlyAnchors(h: string)
    requires '<' !in h && '>' !in h
    ensures StripTags(Linkify(h)) == h
    decreases |h|
  {
    if |h| > 0 {
      var n := UrlAt(h);
      var m := if n > 0 then n else 1;
      NotInSlice(h, '<', m);
      NotInSlice(h, '>', m);
      LinkifyAddsOnlyAnchors(h[m..]);
      if n > 0 {
        LinkifyUrl(h, n);
        StripAnchor(h[..n], Linkify(h[n..]));
        TakeDrop(h, n);
      } else {
        LinkifyChar(h);
        StripCharStep(h, Linkify(h[1..]));
      }
    }
  }

  lemma StripCharStep(h: string, l: string)
    requires |h| > 0 && h[0] != '<' && StripTags(l) == h[1..]
    ensures StripTags([h[0]] + l) == h
  {
    StripPlain([h[0]], l);
    HeadTail(h);
  }

  lemma NotInSlice(h: string, c: char, m: nat)
    requires c !in h && m <= |h|
    ensures c !in h[..m] && c !in h[m..]
  {
    assert forall k :: 0 <= k < m ==> h[..m][k] == h[k];
    assert forall k :: 0 <= k < |h| - m ==> h[m..][k] == h[m + k];
  }

  /** Linkified escaped text loses nothing but gains anchors. */
  lemma LinkifyEscaped(s: string)
    ensures StripTags(Linkify(Escape(s, Apos039))) == Escape(s, Apos039)
  {
    EscapeIsSafe(s, Apos039);
    LinkifyAddsOnlyAnchors(Escape(s, Apos039));
  }

  /* ---------------------------------------------------------------- blocks */

  /** The HTML blocks the renderer emits. */
  datatype Block =
    | ListOpen
    | ListClose
    | Heading1(text: string)
    | Heading2(text: string)
    | Item(html: string)
    | Paragraph(html: string)

  function BlockHtml(b: Block): string
  {
    match b
    case ListOpen => "<ul>"
    case ListClose => "</ul>"
    case Heading1(t) => "<h1>" + t + "</h1>"
    case Heading2(t) => "<h2>" + t + "</h2>"
    case Item(h) => "<li>" + h + "</li>"
    case Paragraph(h) => "<p>" + h + "</p>"
  }

  function Flatten(ss: seq<string>): string
  {
    if |ss| == 0 then "" else ss[0] + Flatten(ss[1..])
  }

  lemma {:induction false} FlattenConcat(a: seq<string>, b: seq<string>)
    ensures Flatten(a + b) == Flatten(a) + Flatten(b)
  {
    if |a| == 0 {
      assert a + b == b;
    } else {
      FlattenConcat(a[1..], b);
      assert (a + b)[1..] == a[1..] + b;
      ConcatAssoc(a[0], Flatten(a[1..]), Flatten(b));
    }
  }

  /** The markup of a list of blocks, block after block. */
  function Serialize(bs: seq<Block>): string
  {
    Flatten(seq(|bs|, k requires 0 <= k < |bs| => BlockHtml(bs[k])))
  }

  lemma SerializeConcat(a: seq<Block>, b: seq<Block>)
    ensures Serialize(a + b) == Serialize(a) + Serialize(b)
  {
    var ha := seq(|a|, k requires 0 <= k < |a| => BlockHtml(a[k]));
    var hb := seq(|b|, k requires 0 <= k < |b| => BlockHtml(b[k]));
    assert seq(|a + b|, k requires 0 <= k < |a + b| => BlockHtml((a + b)[k])) == ha + hb;
    FlattenConcat(ha, hb);
  }

  lemma SerializeOne(b: Block)
    ensures Serialize([b]) == BlockHtml(b)
  {
    var h := seq(1, k requires 0 <= k < 1 => BlockHtml([b][k]));
    assert h == [BlockHtml(b)];
    assert Flatten(h[1..]) == "";
  }

  /**
   What one source line contributes, list markers aside: a heading for a trimmed
   line starting "# " or "## " (escaped, not linkified), an item for "- ",
   nothing for a blank line, and otherwise a paragraph of the whole untrimmed line.
   */
  function LineBlock(raw: string): (r: Option<Block>)
    ensures r.None? <==> Trim(raw) == ""
    ensures r.Some? ==> !r.value.ListOpen? && !r.value.ListClose?
  {
    var line := Trim(raw);
    if StartsWith(line, "# ") then Some(Heading1(Escape(line[2..], Apos039)))
    else if StartsWith(line, "## ") then Some(Heading2(Escape(line[3..], Apos039)))
    else if StartsWith(line, "- ") then Some(Item(Linkify(Escape(line[2..], Apos039))))
    else if line == "" then None
    else Some(Paragraph(Linkify(Escape(raw, Apos039))))
  }

  /** `endList()`: a `</ul>` when a list is open. */
  function EndList(inList: bool): seq<Block>
  {
    if inList then [ListClose] else []
  }

  /**
   One turn of the loop on a line whose block is `lb`: the blocks emitted and
   whether a list is open afterwards. An item opens a list if none is open;
   every other line, blank ones included, first closes an open list.
   */
  function Step(lb: Option<Block>, inList: bool): (seq<Block>, bool)
  {
    match lb
    case None => (EndList(inList), false)
    case Some(b) =>
      if b.Item? then ((if inList then [] else [ListOpen]) + [b], true)
      else (EndList(inList) + [b], false)
  }

  /** The loop over the remaining lines, given by their blocks, and the final `endList()`. */
  function Assemble(lbs: seq<Option<Block>>, inList: bool): seq<Block>
  {
    if |lbs| == 0 then EndList(inList)
    else
      var (e, next) := Step(lbs[0], inList);
      e + Assemble(lbs[1..], next)
  }

  /** The block of every line. */
  function Classify(lines: seq<string>): (r: seq<Option<Block>>)
    ensures |r| == |lines|
    ensures forall k :: 0 <= k < |r| ==> r[k] == LineBlock(lines[k])
  {
    seq(|lines|, k requires 0 <= k < |lines| => LineBlock(lines[k]))
  }

  /** The blocks `renderMarkdownLite` emits for `lines`. */
  function Blocks(lines: seq<string>): seq<Block>
  {
    Assemble(Classify(lines), false)
  }

  /**
   The list discipline: `<ul>` only outside a list and always followed by an
   item, `</ul>` only inside one, items only inside a list, headings and
   paragraphs only outside, and no list left open at the end.
   */
  predicate ListsWellFormed(bs: seq<Block>, inList: bool)
  {
    if |bs| == 0 then !inList
    else
      match bs[0]
      case ListOpen => !inList && |bs| > 1 && bs[1].Item? && ListsWellFormed(bs[1..], true)
      case ListClose => inList && ListsWellFormed(bs[1..], false)
      case Item(_) => inList && ListsWellFormed(bs[1..], true)
      case _ => !inList && ListsWellFormed(bs[1..], false)
  }

  /** No line block is a list marker. */
  predicate NoMarkers(lbs: seq<Option<Block>>)
  {
    forall k :: 0 <= k < |lbs| && lbs[k].Some? ==> !lbs[k].value.ListOpen? && !lbs[k].value.ListClose?
  }

  /** The list discipline, one block at a time. */
  lemma ConsWellFormed(x: Block, t: seq<Block>, inList: bool)
    ensures ListsWellFormed([x] + t, inList) ==
      match x
      case ListOpen => !inList && |t| > 0 && t[0].Item? && ListsWellFormed(t, true)
      case ListClose => inList && ListsWellFormed(t, false)
      case Item(_) => inList && ListsWellFormed(t, true)
      case _ => !inList && ListsWellFormed(t, false)
  {
    assert ([x] + t)[1..] == t;
  }

  /** One line's blocks keep the list discipline in front of any well-formed continuation. */
  lemma StepWellFormed(lb: Option<Block>, inList: bool, t: seq<Block>)
    requires lb.Some? ==> !lb.value.ListOpen? && !lb.value.ListClose?
    requires ListsWellFormed(t, Step(lb, inList).1)
    ensures ListsWellFormed(Step(lb, inList).0 + t, inList)
  {
    var e := Step(lb, inList).0;
    match lb
    case None =>
      if inList {
        ConsWellFormed(ListClose, t, true);
        assert e + t == [ListClose] + t;
      } else {
        assert e + t == t;
      }
    case Some(b) =>
      if b.Item? {
        ConsWellFormed(b, t, true);
        if inList {
          assert e + t == [b] + t;
        } else {
          ConsWellFormed(ListOpen, [b] + t, false);
          assert e + t == [ListOpen] + ([b] + t);
        }
      } else {
        ConsWellFormed(b, t, false);
        if inList {
          ConsWellFormed(ListClose, [b] + t, true);
          assert e + t == [ListClose] + ([b] + t);
        } else {
          assert e + t == [b] + t;
        }
      }
  }

  lemma {:induction false} AssembleWellFormed(lbs: seq<Option<Block>>, inList: bool)
    requires NoMarkers(lbs)
    ensures ListsWellFormed(Assemble(lbs, inList), inList)
  {
    if |lbs| > 0 {
      var rest := lbs[1..];
      assert NoMarkers(rest) by {
        forall k | 0 <= k < |rest| ensures rest[k] == lbs[k + 1] { }
      }
      var next := Step(lbs[0], inList).1;
      AssembleWellFormed(rest, next);
      StepWellFormed(lbs[0], inList, Assemble(rest, next));
    }
  }

  /** The renderer never nests a `<ul>`, never emits an empty one, and closes every one it opens. */
  lemma BlocksWellFormed(lines: seq<string>)
    ensures ListsWellFormed(Blocks(lines), false)
  {
    AssembleWellFormed(Classify(lines), false);
  }

  /** The blocks without the list markers. */
  function Content(bs: seq<Block>): seq<Block>
  {
    if |bs| == 0 then []
    else if bs[0].ListOpen? || bs[0].ListClose? then Content(bs[1..])
    else [bs[0]] + Content(bs[1..])
  }

  lemma {:induction false} ContentConcat(a: seq<Block>, b: seq<Block>)
    ensures Content(a + b) == Content(a) + Content(b)
  {
    if |a| == 0 {
      assert a + b == b;
    } else {
      ContentConcat(a[1..], b);
      assert (a + b)[1..] == a[1..] + b;
      ConcatAssoc([a[0]], Content(a[1..]), Content(b));
    }
  }

  /** The blocks that are present, in order. */
  function Present(lbs: seq<Option<Block>>): seq<Block>
  {
    if |lbs| == 0 then []
    else if lbs[0].None? then Present(lbs[1..])
    else [lbs[0].value] + Present(lbs[1..])
  }

  lemma {:induction false} AssembleContent(lbs: seq<Option<Block>>, inList: bool)
    requires NoMarkers(lbs)
    ensures Content(Assemble(lbs, inList)) == Present(lbs)
  {
    if |lbs| > 0 {
      var rest := lbs[1..];
      assert NoMarkers(rest) by {
        forall k | 0 <= k < |rest| ensures rest[k] == lbs[k + 1] { }
      }
      match lbs[0]
      case None =>
        AssembleContent(rest, false);
        ContentConcat(EndList(inList), Assemble(rest, false));
      case Some(b) =>
        assert !b.ListOpen? && !b.ListClose?;
        if b.Item? {
          AssembleContent(rest, true);
          var open: seq<Block> := if inList then [] else [ListOpen];
          ContentConcat(open + [b], Assemble(rest, true));
          ContentConcat(open, [b]);
        } else {
          AssembleContent(rest, false);
          ContentConcat(EndList(inList) + [b], Assemble(rest, false));
          ContentConcat(EndList(inList), [b]);
        }
    }
  }

  /** Apart from the list markers, the output is exactly the lines' own blocks, in the order of the lines. */
  lemma BlocksContent(lines: seq<string>)
    ensures Content(Blocks(lines)) == Present(Classify(lines))
  {
    AssembleContent(Classify(lines), false);
  }

  /* ---------------------------------------------------------------- renderer */

  lemma SerializeClosing(inList: bool, b: Block)
    ensures Serialize(EndList(inList) + [b]) == (if inList then "</ul>" else "") + BlockHtml(b)
  {
    SerializeConcat(EndList(inList), [b]);
    SerializeOne(b);
    if inList {
      SerializeOne(ListClose);
    }
  }

  lemma SerializeOpening(inList: bool, b: Block)
    ensures Serialize((if inList then [] else [ListOpen]) + [b]) == (if inList then "" else "<ul>") + BlockHtml(b)
  {
    var open: seq<Block> := if inList then [] else [ListOpen];
    SerializeConcat(open, [b]);
    SerializeOne(b);
    if !inList {
      SerializeOne(ListOpen);
    }
  }

  lemma SerializeEndList(inList: bool)
    ensures Serialize(EndList(inList)) == if inList then "</ul>" else ""
  {
    if inList {
      SerializeOne(ListClose);
    }
  }

  /**
   The markup one line appends: `marker` (what the list state calls for) and then
   `open + h + close`, which is the markup of block `b`.
   */
  lemma Emitted(lb: Option<Block>, inList: bool, b: Block, marker: string, open: string, h: string, close: string, piece: string)
    requires lb == Some(b)
    requires marker == if b.Item? then (if inList then "" else "<ul>") else (if inList then "</ul>" else "")
    requires BlockHtml(b) == open + h + close
    requires piece == marker + open + h + close
    ensures piece == Serialize(Step(lb, inList).0)
  {
    if b.Item? {
      SerializeOpening(inList, b);
    } else {
      SerializeClosing(inList, b);
    }
  }

  /** `endList()`: appends `</ul>` when a list is open, and leaves it closed. */
  method CloseList(out: string, inList: bool) returns (out': string, inList': bool)
    ensures out' == out + (if inList then "</ul>" else "")
    ensures !inList'
  {
    out', inList' := out, inList;
    if inList' { out' := out' + "</ul>"; inList' := false; }
  }

  /** Opens a list with `<ul>` unless one is already open, and marks it open. */
  method OpenList(out: string, inList: bool) returns (out': string, inList': bool)
    ensures out' == out + (if inList then "" else "<ul>")
    ensures inList'
  {
    out', inList' := out, inList;
    if !inList' { out' := out' + "<ul>"; inList' := true; }
  }

  /**
   Appends the markup `open + h + close` of block `b`, after `endList()` for a
   heading or paragraph and after opening a list for an item.
   */
  method EmitBlock(inList: bool, b: Block, open: string, h: string, close: string) returns (piece: string, listOpen: bool)
    requires BlockHtml(b) == open + h + close
    ensures piece == Serialize(Step(Some(b), inList).0)
    ensures listOpen == Step(Some(b), inList).1
  {
    if b.Item? {
      piece, listOpen := OpenList("", inList);
    } else {
      piece, listOpen := CloseList("", inList);
    }
    ghost var marker := piece;
    piece := piece + open + h + close;
    Emitted(Some(b), inList, b, marker, open, h, close, piece);
  }

  /**
   The body of the loop of `renderMarkdownLite` for one line: the markup it
   appends to `out` and the new value of `inList`.
   */
  method RenderLine(raw: string, inList: bool) returns (piece: string, listOpen: bool)
    ensures piece == Serialize(Step(LineBlock(raw), inList).0)
    ensures listOpen == Step(LineBlock(raw), inList).1
  {
    var line := Trim(raw);
    ghost var lb := LineBlock(raw);
    if StartsWith(line, "# ") {
      var h := Escape(line[2..], Apos039);
      assert lb == Some(Heading1(h));
      piece, listOpen := EmitBlock(inList, Heading1(h), "<h1>", h, "</h1>");
    } else if StartsWith(line, "## ") {
      var h := Escape(line[3..], Apos039);
      assert lb == Some(Heading2(h));
      piece, listOpen := EmitBlock(inList, Heading2(h), "<h2>", h, "</h2>");
    } else {
      piece, listOpen := RenderBodyLine(raw, line, inList);
    }
  }

  /** The rest of the loop body, for a line that is not a heading: an item, a blank line or a paragraph. */
  method RenderBodyLine(raw: string, line: string, inList: bool) returns (piece: string, listOpen: bool)
    requires line == Trim(raw) && !StartsWith(line, "# ") && !StartsWith(line, "## ")
    ensures piece == Serialize(Step(LineBlock(raw), inList).0)
    ensures listOpen == Step(LineBlock(raw), inList).1
  {
    ghost var lb := LineBlock(raw);
    if StartsWith(line, "- ") {
      var h := Linkify(Escape(line[2..], Apos039));
      assert lb == Some(Item(h));
      piece, listOpen := EmitBlock(inList, Item(h), "<li>", h, "</li>");
    } else if line == "" {
      assert lb == None;
      piece, listOpen := CloseList("", inList);
      SerializeEndList(inList);
    } else {
      var h := Linkify(Escape(raw, Apos039));
      assert lb == Some(Paragraph(h));
      piece, listOpen := EmitBlock(inList, Paragraph(h), "<p>", h, "</p>");
    }
  }

  /** One turn of the loop keeps the markup still to come in step with the blocks of the remaining lines. */
  lemma LoopStep(lbs: seq<Option<Block>>, i: nat, inList: bool, out: string, piece: string, next: bool)
    requires i < |lbs|
    requires piece == Serialize(Step(lbs[i], inList).0) && next == Step(lbs[i], inList).1
    ensures out + Serialize(Assemble(lbs[i..], inList)) == (out + piece) + Serialize(Assemble(lbs[i + 1..], next))
  {
    assert lbs[i..][0] == lbs[i];
    assert lbs[i..][1..] == lbs[i + 1..];
    SerializeConcat(Step(lbs[i], inList).0, Assemble(lbs[i + 1..], next));
  }

  /** The loop of `renderMarkdownLite` over the lines, closing a list still open at the end. */
  method RenderLines(lines: seq<string>) returns (out: string)
    ensures out == Serialize(Blocks(lines))
  {
    ghost var lbs := Classify(lines);
    out := "";
    var inList := false;
    var i := 0;
    while i < |lines|
      invariant 0 <= i <= |lines|
      invariant Serialize(Assemble(lbs, false)) == out + Serialize(Assemble(lbs[i..], inList))
    {
      var piece, next := RenderLine(lines[i], inList);
      assert lbs[i] == LineBlock(lines[i]);
      LoopStep(lbs, i, inList, out, piece, next);
      out, inList := out + piece, next;
      i := i + 1;
    }
    assert lbs[i..] == [];
    SerializeEndList(inList);
    if inList { out := out + "</ul>"; inList := false; }
  }

  /**
   `renderMarkdownLite(md)`: splits `md || ""` at line feeds, appends the markup
   of every line in turn and closes a list still open at the end.
   */
  method RenderMarkdownLite(md: Option<string>) returns (out: string)
    ensures out == Serialize(Blocks(Split(md.GetOr(""), '\n')))
  {
    var lines := Split(md.GetOr(""), '\n');
    out := RenderLines(lines);
  }
}

=== FILE: portal.dfy ===
/**
 The page-navigation "portal" of `app.js`.

 The navigation state is the record `Nav`: the index of the active page in
 `Order`, the re-entrancy `lock`, and whether the landing circle has been left
 (`inContentMode`). Every event handler of the script is a function from one
 `World` to the next. The script's `setTimeout` callbacks are explicit pending
 `Timer`s with a due time; `AdvanceTo` lets time pass and fires the due timers
 earliest first, and in scheduling order on ties, as a browser event loop does.
 Class toggles on the page elements become `Notice`s appended to a log.
 */
module Portal {
  import opened Wrappers
  import opened JsString

  /** The page keys, in navigation order. */
  const Order: seq<string> := ["home", "projects", "resume", "reels", "articles", "contact"]

  /** The index of the last page. */
  const Last: int := |Order| - 1

  /** Timer delays, in milliseconds. */
  const EnterMs: nat := 680      // entry animation, then the lock is released
  const CollapseMs: nat := 560   // the old page collapses, then the new one expands
  const ExpandMs: nat := 620     // the new page has expanded, then the lock is released
  const DockJumpMs: nat := 260   // dock click while still on the landing circle
  const QueryJumpMs: nat := 220  // `?p=` jump at start-up

  /** Input thresholds, in CSS pixels; the browser reports these quantities as floating-point numbers. */
  const WheelMin: real := 12.0       // wheel movements smaller than this are ignored
  const SwipeMinY: real := 56.0      // vertical swipe distance
  const SwipeMaxXRatio: real := 0.6  // largest horizontal movement, relative to the vertical one

  function Abs(x: int): nat { if x < 0 then -x else x }
  function Max(a: int, b: int): int { if a >= b then a else b }
  function Min(a: int, b: int): int { if a <= b then a else b }

  /** `Math.abs` on a pixel quantity. */
  function Magnitude(x: real): real { if x < 0.0 then -x else x }

  /* ---------------------------------------------------------------- state */

  datatype Nav = Nav(idx: int, lock: bool, inContentMode: bool)

  /** The initial state: on the landing circle, unlocked, page 0. */
  const Idle := Nav(0, false, false)

  /** Direction of the circle's spin; `Unspecified` is the argument the start-up jump leaves out. */
  datatype Dir = Forward | Backward | Unspecified

  /** What the presentation layer is told. */
  datatype Notice =
    | Activate(page: int)       // `setActivePage`: the page and its dock item become active
    | DockHighlight(page: int)  // only the dock item becomes active
    | PortalIn(page: int)       // the page plays its expand animation
    | PortalOut(page: int)      // the page plays its collapse animation
    | Spin(dir: Dir)            // the circle turns a full lap

  /** The body of a pending `setTimeout`. */
  datatype Callback =
    | EnterDone                      // end of the entry animation: releases the lock
    | Expand(target: int)            // collapse done: show the new page, schedule `ExpandDone`
    | ExpandDone                     // expand done: releases the lock
    | Jump(target: int, dir: Dir)    // a delayed `portalTransition`

  datatype Timer = Timer(due: int, cb: Callback)

  /** The touch-gesture tracking variables. */
  datatype Touch = Touch(tracking: bool, allowSwipe: bool, startX: real, startY: real, lastX: real, lastY: real)

  datatype World = World(now: int, nav: Nav, touch: Touch, pending: seq<Timer>, log: seq<Notice>)

  /* ---------------------------------------------------------------- pages */

  /** The page index a request lands on: the nearest index of `Order`. */
  function Clamp(i: int): (r: int)
    ensures 0 <= r <= Last
    ensures 0 <= i <= Last ==> r == i
    ensures i < 0 ==> r == 0
    ensures i > Last ==> r == Last
  {
    Max(0, Min(Last, i))
  }

  /** No valid index is closer to the request than the clamped one, and clamping twice changes nothing. */
  lemma ClampNearest(i: int, j: int)
    requires 0 <= j <= Last
    ensures Abs(Clamp(i) - i) <= Abs(j - i)
    ensures Clamp(Clamp(i)) == Clamp(i)
  {
  }

  /** `ORDER.indexOf(key)`: the first position of `key`, or -1 when it is not a page key. */
  function IndexOf(key: string): (n: int)
    ensures -1 <= n <= Last
    ensures n == -1 <==> key !in Order
    ensures n >= 0 ==> Order[n] == key && forall j :: 0 <= j < n ==> Order[j] != key
  {
    IndexIn(Order, key)
  }

  function IndexIn(keys: seq<string>, key: string): (n: int)
    ensures -1 <= n < |keys|
    ensures n == -1 <==> key !in keys
    ensures n >= 0 ==> keys[n] == key && forall j :: 0 <= j < n ==> keys[j] != key
  {
    if |keys| == 0 then -1
    else if keys[0] == key then 0
    else
      var n := IndexIn(keys[1..], key);
      assert key in keys[1..] ==> key in keys;
      assert key in keys && keys[0] != key ==> key in keys[1..];
      if n < 0 then -1 else n + 1
  }

  /** `setActivePage(i)`: the clamped index becomes the active page. */
  function SetActivePage(w: World, i: int): (r: World)
    ensures r.nav == w.nav.(idx := Clamp(i))
    ensures r.log == w.log + [Activate(Clamp(i))]
    ensures r.now == w.now && r.touch == w.touch && r.pending == w.pending
  {
    var k := Clamp(i);
    w.(nav := w.nav.(idx := k), log := w.log + [Activate(k)])
  }

  /* ---------------------------------------------------------------- the two transitions */

  /**
   `enterContentMode()`: leaves the landing circle for page 0, holding the lock
   until the `EnterDone` timer fires `EnterMs` later; a no-op when already in
   content mode or locked.
   */
  function EnterContentMode(w: World): (r: World)
    ensures w.nav.inContentMode || w.nav.lock ==> r == w
    ensures !w.nav.inContentMode && !w.nav.lock ==>
      && r.nav == Nav(0, true, true)
      && r.pending == w.pending + [Timer(w.now + EnterMs, EnterDone)]
      && r.log == w.log + [Activate(0), PortalIn(0)]
      && r.now == w.now && r.touch == w.touch
  {
    if w.nav.inContentMode || w.nav.lock then w
    else
      var w1 := SetActivePage(w.(nav := Nav(0, true, true)), 0);
      w1.(log := w1.log + [PortalIn(0)], pending := w1.pending + [Timer(w.now + EnterMs, EnterDone)])
  }

  /** `portalTransition` starts a page change exactly when this holds. */
  predicate Accepts(nav: Nav, next: int)
  {
    nav.inContentMode && !nav.lock && Clamp(next) != nav.idx
  }

  /**
   `portalTransition(next, dir)`: outside content mode, while locked, or when the
   clamped target is the current page, nothing happens. Otherwise the lock is
   taken, the current page collapses, the index moves to the clamped target at
   once, and the expansion is scheduled `CollapseMs` later.
   */
  function PortalTransition(w: World, next: int, dir: Dir): (r: World)
    ensures !Accepts(w.nav, next) ==> r == w
    ensures Accepts(w.nav, next) ==>
      && r.nav == Nav(Clamp(next), true, true)
      && r.pending == w.pending + [Timer(w.now + CollapseMs, Expand(Clamp(next)))]
      && r.log == w.log + [PortalOut(w.nav.idx), DockHighlight(Clamp(next)), Spin(dir)]
      && r.now == w.now && r.touch == w.touch
  {
    if !w.nav.inContentMode || w.nav.lock then w
    else
      var target := Clamp(next);
      if target == w.nav.idx then w
      else
        w.(nav := w.nav.(lock := true, idx := target),
           log := w.log + [PortalOut(w.nav.idx), DockHighlight(target), Spin(dir)],
           pending := w.pending + [Timer(w.now + CollapseMs, Expand(target))])
  }

  /* ---------------------------------------------------------------- timers */

  /** Runs the body of a timer that has come due. */
  function Run(w: World, cb: Callback): (r: World)
    ensures r.now == w.now && r.touch == w.touch
    ensures |w.pending| <= |r.pending| && r.pending[..|w.pending|] == w.pending
    ensures (cb.EnterDone? || cb.ExpandDone?) ==> r == w.(nav := w.nav.(lock := false))
    ensures cb.Expand? ==>
      && r.nav == w.nav.(idx := Clamp(cb.target))
      && r.pending == w.pending + [Timer(w.now + ExpandMs, ExpandDone)]
      && r.log == w.log + [Activate(Clamp(cb.target)), PortalIn(Clamp(cb.target))]
    ensures cb.Jump? ==> r == PortalTransition(w, cb.target, cb.dir)
  {
    match cb
    case EnterDone => w.(nav := w.nav.(lock := false))
    case Expand(target) =>
      var w1 := SetActivePage(w, target);
      w1.(log := w1.log + [PortalIn(w1.nav.idx)], pending := w1.pending + [Timer(w.now + ExpandMs, ExpandDone)])
    case ExpandDone => w.(nav := w.nav.(lock := false))
    case Jump(target, dir) => PortalTransition(w, target, dir)
  }

  /** The position of the timer that fires next: the earliest due, and the first scheduled among equals. */
  function Earliest(ts: seq<Timer>): (k: nat)
    requires |ts| > 0
    ensures k < |ts|
    ensures forall j :: 0 <= j < |ts| ==> ts[k].due <= ts[j].due
    ensures forall j :: 0 <= j < k ==> ts[k].due < ts[j].due
  {
    if |ts| == 1 then 0
    else
      var k := Earliest(ts[1..]);
      if ts[0].due <= ts[1..][k].due then 0 else k + 1
  }

  /** Fires the next timer: the clock moves to its due time and its body runs. */
  function Fire(w: World): (r: World)
    requires |w.pending| > 0
    ensures r.now == Max(w.now, w.pending[Earliest(w.pending)].due)
  {
    var k := Earliest(w.pending);
    var t := w.pending[k];
    Run(w.(now := Max(w.now, t.due), pending := w.pending[..k] + w.pending[k + 1..]), t.cb)
  }

  /** Firing keeps every timer due later than the one that fires. */
  lemma FireKeepsLater(w: World)
    requires |w.pending| > 0
    ensures forall tm :: tm in w.pending && tm.due > w.pending[Earliest(w.pending)].due ==> tm in Fire(w).pending
  {
    var k := Earliest(w.pending);
    var t := w.pending[k];
    var rest := w.pending[..k] + w.pending[k + 1..];
    RemoveKeepsOthers(w.pending, k);
    var r := Run(w.(now := Max(w.now, t.due), pending := rest), t.cb);
    assert Fire(w) == r;
    forall tm | tm in rest ensures tm in r.pending {
      var i :| 0 <= i < |rest| && rest[i] == tm;
      assert r.pending[..|rest|][i] == tm;
    }
  }

  /** Taking the timer at `k` off the queue leaves every timer that differs from it. */
  lemma RemoveKeepsOthers(ts: seq<Timer>, k: nat)
    requires k < |ts|
    ensures forall tm :: tm in ts && tm != ts[k] ==> tm in ts[..k] + ts[k + 1..]
  {
    forall tm | tm in ts && tm != ts[k]
      ensures tm in ts[..k] + ts[k + 1..]
    {
      var i :| 0 <= i < |ts| && ts[i] == tm;
      if i < k {
        assert (ts[..k] + ts[k + 1..])[i] == tm;
      } else {
        assert (ts[..k] + ts[k + 1..])[i - 1] == tm;
      }
    }
  }

  /** A measure that every firing decreases: a jump may schedule an expansion, which schedules an unlock. */
  function Weight(cb: Callback): nat
  {
    match cb
    case Jump(_, _) => 3
    case Expand(_) => 2
    case _ => 1
  }

  function TotalWeight(ts: seq<Timer>): nat
  {
    if |ts| == 0 then 0 else Weight(ts[0].cb) + TotalWeight(ts[1..])
  }

  lemma {:induction false} TotalWeightConcat(a: seq<Timer>, b: seq<Timer>)
    ensures TotalWeight(a + b) == TotalWeight(a) + TotalWeight(b)
  {
    if |a| == 0 {
      assert a + b == b;
    } else {
      TotalWeightConcat(a[1..], b);
      assert (a + b)[1..] == a[1..] + b;
    }
  }

  lemma FireDecreases(w: World)
    requires |w.pending| > 0
    ensures TotalWeight(Fire(w).pending) < TotalWeight(w.pending)
  {
    var ts := w.pending;
    var k := Earliest(ts);
    var rest := ts[..k] + ts[k + 1..];
    assert ts == ts[..k] + ([ts[k]] + ts[k + 1..]);
    TotalWeightConcat(ts[..k], [ts[k]] + ts[k + 1..]);
    TotalWeightConcat([ts[k]], ts[k + 1..]);
    TotalWeightConcat(ts[..k], ts[k + 1..]);
    var w1 := w.(now := Max(w.now, ts[k].due), pending := rest);
    assert Fire(w) == Run(w1, ts[k].cb);
    RunWeight(w1, ts[k].cb);
  }

  /** A timer body schedules timers of less weight than its own. */
  lemma RunWeight(w: World, cb: Callback)
    ensures TotalWeight(Run(w, cb).pending) < TotalWeight(w.pending) + Weight(cb)
  {
    match cb
    case Expand(target) =>
      TotalWeightConcat(w.pending, [Timer(w.now + ExpandMs, ExpandDone)]);
    case Jump(target, dir) =>
      if Accepts(w.nav, target) {
        TotalWeightConcat(w.pending, [Timer(w.now + CollapseMs, Expand(Clamp(target)))]);
      }
    case EnterDone =>
    case ExpandDone =>
  }

  /**
   Lets time pass up to `t`: fires, one after another, every timer due by then
   (including timers scheduled by those that fire), and leaves the clock at `t`.
   */
  function AdvanceTo(w: World, t: int): (r: World)
    ensures r.now == Max(w.now, t)
    ensures forall i :: 0 <= i < |r.pending| ==> r.pending[i].due > t
    decreases TotalWeight(w.pending)
  {
    if |w.pending| > 0 && w.pending[Earliest(w.pending)].due <= t then
      FireDecreases(w);
      AdvanceTo(Fire(w), t)
    else
      w.(now := Max(w.now, t))
  }

  /** Letting time pass up to `t` keeps every timer due after `t`. */
  lemma {:induction false} AdvanceKeepsLater(w: World, t: int)
    ensures forall tm :: tm in w.pending && tm.due > t ==> tm in AdvanceTo(w, t).pending
    decreases TotalWeight(w.pending)
  {
    if |w.pending| > 0 && w.pending[Earliest(w.pending)].due <= t {
      FireDecreases(w);
      FireKeepsLater(w);
      AdvanceKeepsLater(Fire(w), t);
    }
  }

  /** When nothing is due by `t`, letting time pass only moves the clock. */
  lemma AdvanceNothingDue(w: World, t: int)
    requires forall i :: 0 <= i < |w.pending| ==> w.pending[i].due > t
    ensures AdvanceTo(w, t) == w.(now := Max(w.now, t))
  {
    if |w.pending| > 0 {
      var k := Earliest(w.pending);
      assert w.pending[k].due > t;
    }
  }

  /* ---------------------------------------------------------------- gestures */

  /** What a gesture asks of the state machine. */
  datatype Request = Stay | Enter | Move(target: int, dir: Dir)

  function Perform(w: World, req: Request): World
  {
    match req
    case Stay => w
    case Enter => EnterContentMode(w)
    case Move(target, dir) => PortalTransition(w, target, dir)
  }

  /** The part of a wheel event's target that matters: the enclosing `.scrollCard`, if any. */
  datatype ScrollBox = ScrollBox(scrollTop: real, scrollHeight: real, clientHeight: real)

  datatype WheelEvent = WheelEvent(deltaX: real, deltaY: real, scroller: Option<ScrollBox>)

  /** The delta of the dominant axis: the vertical one when strictly larger, the horizontal one otherwise. */
  function Dominant(dx: real, dy: real): (d: real)
    ensures Magnitude(dy) > Magnitude(dx) ==> d == dy
    ensures Magnitude(dy) <= Magnitude(dx) ==> d == dx
    ensures Magnitude(d) >= Magnitude(dx) && Magnitude(d) >= Magnitude(dy)
  {
    if Magnitude(dy) > Magnitude(dx) then dy else dx
  }

  /** `canScrollInside`: the box has more than two pixels of content to scroll. */
  predicate CanScrollInside(b: ScrollBox)
  {
    b.scrollHeight - b.clientHeight > 2.0
  }

  predicate AtTop(b: ScrollBox) { b.scrollTop <= 0.0 }

  predicate AtBottom(b: ScrollBox) { b.scrollTop + b.clientHeight >= b.scrollHeight - 1.0 }

  /**
   `shouldLetInnerScroll`: the wheel scrolls the card instead of changing page
   exactly when the card can scroll and either the movement is tiny or the card
   is not yet at its edge in the direction of the movement.
   */
  function ShouldLetInnerScroll(ev: WheelEvent): (r: bool)
    ensures r <==>
      && ev.scroller.Some?
      && CanScrollInside(ev.scroller.value)
      && var d := Dominant(ev.deltaX, ev.deltaY);
         || Magnitude(d) < 2.0
         || (d > 0.0 && !AtBottom(ev.scroller.value))
         || (d < 0.0 && !AtTop(ev.scroller.value))
  {
    if ev.scroller.None? then false
    else
      var b := ev.scroller.value;
      if !CanScrollInside(b) then false
      else
        var delta := Dominant(ev.deltaX, ev.deltaY);
        if Magnitude(delta) < 2.0 then true
        else if delta > 0.0 && !AtBottom(b) then true
        else if delta < 0.0 && !AtTop(b) then true
        else false
  }

  /**
   The wheel handler's decision: ignored when the card scrolls or the dominant
   delta is below `WheelMin`; enters content mode from the landing circle;
   otherwise, unless locked, moves one page down for a positive delta and one
   page up for any other.
   */
  function WheelRequest(nav: Nav, ev: WheelEvent): (r: Request)
    ensures var d := Dominant(ev.deltaX, ev.deltaY);
      && (ShouldLetInnerScroll(ev) || Magnitude(d) < WheelMin ==> r == Stay)
      && (r == Enter <==> !ShouldLetInnerScroll(ev) && Magnitude(d) >= WheelMin && !nav.inContentMode)
      && (r.Move? <==> !ShouldLetInnerScroll(ev) && Magnitude(d) >= WheelMin && nav.inContentMode && !nav.lock)
      && (r.Move? ==> r.target == (if d > 0.0 then nav.idx + 1 else nav.idx - 1))
      && (r.Move? ==> (r.dir == Forward <==> d > 0.0) && r.dir != Unspecified)
  {
    if ShouldLetInnerScroll(ev) then Stay
    else
      var d := Dominant(ev.deltaX, ev.deltaY);
      if Magnitude(d) < WheelMin then Stay
      else if !nav.inContentMode then Enter
      else if nav.lock then Stay
      else if d > 0.0 then Move(nav.idx + 1, Forward)
      else Move(nav.idx - 1, Backward)
  }

  function Wheel(w: World, ev: WheelEvent): World
  {
    Perform(w, WheelRequest(w.nav, ev))
  }

  /**
   A click on the landing circle: outside content mode it is `enterContentMode`,
   which does nothing while locked and otherwise enters on page 0 holding the
   lock, with the unlock due `EnterMs` later; in content mode nothing happens.
   */
  function CircleClick(w: World): (r: World)
    ensures w.nav.inContentMode ==> r == w
    ensures !w.nav.inContentMode ==> r == EnterContentMode(w)
    ensures w.nav.lock ==> r == w
    ensures !w.nav.lock ==> r.nav.inContentMode
    ensures !w.nav.inContentMode && !w.nav.lock ==>
      && r.nav == Nav(0, true, true)
      && r.pending == w.pending + [Timer(w.now + EnterMs, EnterDone)]
      && r.log == w.log + [Activate(0), PortalIn(0)]
      && r.now == w.now && r.touch == w.touch
  {
    if !w.nav.inContentMode then EnterContentMode(w) else w
  }

  /**
   A click on the dock item for `key`, with the delay of the follow-up jump as a
   parameter: unknown keys are ignored; from the landing circle it enters content
   mode and, for a page other than home, schedules the jump; in content mode it
   asks for that page, forward exactly when it lies after the current one.
   */
  function DockClickAfter(w: World, key: string, jumpDelay: nat): (r: World)
    ensures r.now == w.now
    ensures IndexOf(key) < 0 ==> r == w
    ensures IndexOf(key) >= 0 && w.nav.inContentMode ==>
      r == PortalTransition(w, IndexOf(key), if IndexOf(key) > w.nav.idx then Forward else Backward)
    ensures IndexOf(key) >= 0 && !w.nav.inContentMode ==>
      && r.nav == EnterContentMode(w).nav
      && r.log == EnterContentMode(w).log
      && r.touch == w.touch
    ensures IndexOf(key) == 0 && !w.nav.inContentMode ==> r.pending == EnterContentMode(w).pending
    ensures IndexOf(key) > 0 && !w.nav.inContentMode ==>
      r.pending == EnterContentMode(w).pending + [Timer(w.now + jumpDelay, Jump(IndexOf(key), Forward))]
  {
    var n := IndexOf(key);
    if n < 0 then w
    else if !w.nav.inContentMode then
      var w1 := EnterContentMode(w);
      if n != 0 then w1.(pending := w1.pending + [Timer(w.now + jumpDelay, Jump(n, Forward))])
      else
        assert w1.pending + [] == w1.pending;
        w1
    else
      PortalTransition(w, n, if n > w.nav.idx then Forward else Backward)
  }

  /** The dock handler as written: the follow-up jump comes `DockJumpMs` after entering. */
  function DockClick(w: World, key: string): World
  {
    DockClickAfter(w, key, DockJumpMs)
  }

  /** The dock handler with the jump scheduled when the entry lock is released. */
  function DockClickFixed(w: World, key: string): World
  {
    DockClickAfter(w, key, EnterMs)
  }

  /** `touchstart`: ignored while locked; otherwise starts tracking at the touch point. */
  function TouchStart(w: World, x: real, y: real, fromBackground: bool): (r: World)
    ensures w.nav.lock ==> r == w
    ensures !w.nav.lock ==>
      && r.touch == Touch(true, fromBackground, x, y, x, y)
      && r.nav == w.nav && r.pending == w.pending && r.log == w.log && r.now == w.now
  {
    if w.nav.lock then w else w.(touch := Touch(true, fromBackground, x, y, x, y))
  }

  /** `touchmove`: records the latest touch point while tracking, and never changes the page. */
  function TouchMove(w: World, x: real, y: real): (r: World)
    ensures !w.touch.tracking ==> r == w
    ensures r.nav == w.nav && r.pending == w.pending && r.log == w.log && r.now == w.now
    ensures r.touch.tracking == w.touch.tracking && r.touch.allowSwipe == w.touch.allowSwipe
    ensures r.touch.startX == w.touch.startX && r.touch.startY == w.touch.startY
    ensures w.touch.tracking ==> r.touch.lastX == x && r.touch.lastY == y
  {
    if !w.touch.tracking then w else w.(touch := w.touch.(lastX := x, lastY := y))
  }

  /**
   The swipe decision of `touchend`, from the movement `(dx, dy)`: too short
   (below `SwipeMinY` vertically) or too slanted (horizontal more than 0.6 of the
   vertical) is ignored; from the landing circle it enters content mode; otherwise
   an upward swipe (`dy < 0`) asks for the next page and any other for the previous.
   */
  function SwipeRequest(nav: Nav, dx: real, dy: real): (r: Request)
    ensures Magnitude(dy) < SwipeMinY || Magnitude(dx) > Magnitude(dy) * SwipeMaxXRatio ==> r == Stay
    ensures r == Enter <==>
      Magnitude(dy) >= SwipeMinY && Magnitude(dx) <= Magnitude(dy) * SwipeMaxXRatio && !nav.inContentMode
    ensures r.Move? <==>
      Magnitude(dy) >= SwipeMinY && Magnitude(dx) <= Magnitude(dy) * SwipeMaxXRatio && nav.inContentMode
    ensures r.Move? ==> r.target == (if dy < 0.0 then nav.idx + 1 else nav.idx - 1)
    ensures r.Move? ==> (r.dir == Forward <==> dy < 0.0) && r.dir != Unspecified
  {
    if Magnitude(dy) < SwipeMinY then Stay
    else if Magnitude(dx) > Magnitude(dy) * SwipeMaxXRatio then Stay
    else if !nav.inContentMode then Enter
    else if dy < 0.0 then Move(nav.idx + 1, Forward)
    else Move(nav.idx - 1, Backward)
  }

  /** The swipe the tracked touch describes. */
  function TouchRequest(w: World): Request
  {
    SwipeRequest(w.nav, w.touch.lastX - w.touch.startX, w.touch.lastY - w.touch.startY)
  }

  /**
   `touchend`: a no-op unless tracking; it always stops tracking; when the swipe
   was not allowed or the portal is locked that is all it does; otherwise it acts
   on the swipe, and after asking for a page (accepted or not) it disallows
   further swipes from this touch.
   */
  function TouchEnd(w: World): (r: World)
    ensures !w.touch.tracking ==> r == w
    ensures w.touch.tracking ==> !r.touch.tracking
    ensures w.touch.tracking && (!w.touch.allowSwipe || w.nav.lock) ==> r == w.(touch := w.touch.(tracking := false))
    ensures w.touch.tracking && w.touch.allowSwipe && !w.nav.lock ==>
      && r.nav == Perform(w, TouchRequest(w)).nav
      && r.pending == Perform(w, TouchRequest(w)).pending
      && r.log == Perform(w, TouchRequest(w)).log
      && r.touch.allowSwipe == !TouchRequest(w).Move?
  {
    if !w.touch.tracking then w
    else
      var w1 := w.(touch := w.touch.(tracking := false));
      if !w1.touch.allowSwipe || w1.nav.lock then w1
      else
        var req := TouchRequest(w);
        assert TouchRequest(w1) == req;
        match req
        case Stay => w1
        case Enter => EnterContentMode(w1)
        case Move(target, dir) =>
          var w2 := PortalTransition(w1, target, dir);
          w2.(touch := w2.touch.(allowSwipe := false))
  }

  /* ---------------------------------------------------------------- start-up */

  const NoTouch := Touch(false, false, 0.0, 0.0, 0.0, 0.0)

  /** The page as loaded, before any script statement has run. */
  const Start := World(0, Idle, NoTouch, [], [])

  /**
   `jumpFromQuery` with the jump delay as a parameter: a present, non-empty
   `?p=` that names a page key (after lower-casing) enters content mode and, for
   a page other than home, schedules a jump to it.
   */
  function QueryJumpAfter(w: World, p: Option<string>, jumpDelay: nat): (r: World)
    ensures r.now == w.now
    ensures p.None? || p.value == "" || IndexOf(ToLower(p.value)) < 0 ==> r == w
    ensures p.Some? && p.value != "" && IndexOf(ToLower(p.value)) >= 0 ==> r.nav == EnterContentMode(w).nav
    ensures p.Some? && p.value != "" && IndexOf(ToLower(p.value)) == 0 ==> r.pending == EnterContentMode(w).pending
    ensures p.Some? && p.value != "" && IndexOf(ToLower(p.value)) > 0 ==>
      r.pending == EnterContentMode(w).pending + [Timer(w.now + jumpDelay, Jump(IndexOf(ToLower(p.value)), Unspecified))]
  {
    if p.None? || p.value == "" then w
    else
      var n := IndexOf(ToLower(p.value));
      if n < 0 then w
      else
        var w1 := EnterContentMode(w);
        if n != 0 then w1.(pending := w1.pending + [Timer(w.now + jumpDelay, Jump(n, Unspecified))])
        else
          assert w1.pending + [] == w1.pending;
          w1
  }

  /** The script's closing init block: back to the landing state, page 0 active; pending timers survive. */
  function Init(w: World): (r: World)
    ensures r.nav == Idle && r.pending == w.pending && r.now == w.now
  {
    SetActivePage(w.(nav := Idle), 0)
  }

  /**
   Start-up as written: `jumpFromQuery` runs first and the init block after it,
   so the state is back on the landing circle while the timers it scheduled stay.
   */
  function BootAsWritten(p: Option<string>): (r: World)
    ensures r.now == 0 && r.nav == Idle
    ensures r.pending == QueryJumpAfter(Start, p, QueryJumpMs).pending
  {
    Init(QueryJumpAfter(Start, p, QueryJumpMs))
  }

  /** Start-up with the init block first and the query jump scheduled for when the entry lock is released. */
  function Boot(p: Option<string>): World
  {
    QueryJumpAfter(Init(Start), p, EnterMs)
  }

  /* ---------------------------------------------------------------- sessions */

  /** One thing that can happen after start-up. */
  datatype Input =
    | ClickCircle
    | ClickDock(key: string)
    | WheelInput(ev: WheelEvent)
    | TouchStartAt(x: real, y: real, fromBackground: bool)
    | TouchMoveTo(x: real, y: real)
    | TouchEndInput
    | Wait(until: int)

  /** The handler for one input; the dock's follow-up jump comes `dockDelay` after entering. */
  function Step(w: World, i: Input, dockDelay: nat): World
  {
    match i
    case ClickCircle => CircleClick(w)
    case ClickDock(key) => DockClickAfter(w, key, dockDelay)
    case WheelInput(ev) => Wheel(w, ev)
    case TouchStartAt(x, y, bg) => TouchStart(w, x, y, bg)
    case TouchMoveTo(x, y) => TouchMove(w, x, y)
    case TouchEndInput => TouchEnd(w)
    case Wait(t) => AdvanceTo(w, t)
  }

  /** The script as written: its start-up, then the inputs in order, with the 260 ms dock jump. */
  function SessionAsWritten(p: Option<string>, inputs: seq<Input>): World
    decreases |inputs|
  {
    if |inputs| == 0 then BootAsWritten(p)
    else Step(SessionAsWritten(p, inputs[..|inputs| - 1]), inputs[|inputs| - 1], DockJumpMs)
  }

  /** The corrected script: init block first, and both follow-up jumps due when the entry lock is released. */
  function Session(p: Option<string>, inputs: seq<Input>): World
    decreases |inputs|
  {
    if |inputs| == 0 then Boot(p)
    else Step(Session(p, inputs[..|inputs| - 1]), inputs[|inputs| - 1], EnterMs)
  }
}

=== FILE: portal_timing.dfy ===
/**
 What the fixed timers of `app.js` imply: the invariant every handler and timer
 keeps, how long the lock is held after each kind of transition, and the two
 places where a scheduled jump can never take effect.
 */
module PortalTiming {
  import opened Wrappers
  import opened JsString
  import opened Portal

  /* ---------------------------------------------------------------- timer bookkeeping */

  /** The number of pending timers that will release (or pass on) the lock: all but the jumps. */
  function LockTimers(ts: seq<Timer>): nat
  {
    if |ts| == 0 then 0 else (if ts[0].cb.Jump? then 0 else 1) + LockTimers(ts[1..])
  }

  lemma {:induction false} LockTimersConcat(a: seq<Timer>, b: seq<Timer>)
    ensures LockTimers(a + b) == LockTimers(a) + LockTimers(b)
  {
    if |a| == 0 {
      assert a + b == b;
    } else {
      LockTimersConcat(a[1..], b);
      assert (a + b)[1..] == a[1..] + b;
    }
  }

  lemma LockTimersRemove(ts: seq<Timer>, k: nat)
    requires k < |ts|
    ensures LockTimers(ts) == LockTimers(ts[..k] + ts[k + 1..]) + (if ts[k].cb.Jump? then 0 else 1)
  {
    assert ts == ts[..k] + ([ts[k]] + ts[k + 1..]);
    LockTimersConcat(ts[..k], [ts[k]] + ts[k + 1..]);
    LockTimersConcat([ts[k]], ts[k + 1..]);
    LockTimersConcat(ts[..k], ts[k + 1..]);
  }

  /** With no lock timer left, every pending timer is a jump. */
  lemma {:induction false} NoLockTimers(ts: seq<Timer>)
    requires LockTimers(ts) == 0
    ensures forall i :: 0 <= i < |ts| ==> ts[i].cb.Jump?
  {
    if |ts| > 0 {
      NoLockTimers(ts[1..]);
      assert forall i :: 1 <= i < |ts| ==> ts[i] == ts[1..][i - 1];
    }
  }

  /* ---------------------------------------------------------------- the invariant */

  /**
   The state every reachable world is in: the index names a page, only content
   mode is ever locked, exactly one timer will release the lock while it is held
   (none while it is free), no timer is overdue, and a pending expansion is for
   the current page.
   */
  predicate Inv(w: World)
  {
    && 0 <= w.nav.idx <= Last
    && (w.nav.lock ==> w.nav.inContentMode)
    && LockTimers(w.pending) == (if w.nav.lock then 1 else 0)
    && (forall i :: 0 <= i < |w.pending| ==> w.pending[i].due >= w.now)
    && (forall i :: 0 <= i < |w.pending| && w.pending[i].cb.Expand? ==> w.pending[i].cb.target == w.nav.idx)
  }

  lemma InvEnter(w: World)
    requires Inv(w)
    ensures Inv(EnterContentMode(w))
  {
    if !w.nav.inContentMode && !w.nav.lock {
      LockTimersConcat(w.pending, [Timer(w.now + EnterMs, EnterDone)]);
      NoLockTimers(w.pending);
    }
  }

  lemma InvTransition(w: World, next: int, dir: Dir)
    requires Inv(w)
    ensures Inv(PortalTransition(w, next, dir))
  {
    if Accepts(w.nav, next) {
      LockTimersConcat(w.pending, [Timer(w.now + CollapseMs, Expand(Clamp(next)))]);
      NoLockTimers(w.pending);
    }
  }

  lemma InvPerform(w: World, req: Request)
    requires Inv(w)
    ensures Inv(Perform(w, req))
  {
    match req
    case Stay =>
    case Enter => InvEnter(w);
    case Move(target, dir) => InvTransition(w, target, dir);
  }

  /**
   The world once a lock timer has been taken off the queue: the lock is held
   in content mode and only jumps are left, none of them overdue.
   */
  predicate LockTimerTaken(w1: World)
  {
    && 0 <= w1.nav.idx <= Last
    && w1.nav.lock && w1.nav.inContentMode
    && LockTimers(w1.pending) == 0
    && (forall i :: 0 <= i < |w1.pending| ==> w1.pending[i].due >= w1.now)
  }

  lemma InvRunUnlock(w1: World)
    requires LockTimerTaken(w1)
    ensures Inv(w1.(nav := w1.nav.(lock := false)))
  {
    NoLockTimers(w1.pending);
  }

  lemma InvRunExpand(w1: World, target: int)
    requires LockTimerTaken(w1) && target == w1.nav.idx
    ensures Inv(Run(w1, Expand(target)))
  {
    NoLockTimers(w1.pending);
    LockTimersConcat(w1.pending, [Timer(w1.now + ExpandMs, ExpandDone)]);
  }

  lemma InvFire(w: World)
    requires Inv(w) && |w.pending| > 0
    ensures Inv(Fire(w))
  {
    var ts := w.pending;
    var k := Earliest(ts);
    var t := ts[k];
    var rest := ts[..k] + ts[k + 1..];
    LockTimersRemove(ts, k);
    assert forall i :: 0 <= i < |rest| ==> rest[i] in ts;
    var w1 := w.(now := Max(w.now, t.due), pending := rest);
    assert w1.now == t.due;
    assert Fire(w) == Run(w1, t.cb);
    match t.cb
    case EnterDone =>
      InvRunUnlock(w1);
    case ExpandDone =>
      InvRunUnlock(w1);
    case Expand(target) =>
      InvRunExpand(w1, target);
    case Jump(target, dir) =>
      assert Inv(w1);
      InvTransition(w1, target, dir);
  }

  lemma {:induction false} InvAdvance(w: World, t: int)
    requires Inv(w)
    ensures Inv(AdvanceTo(w, t))
    decreases TotalWeight(w.pending)
  {
    if |w.pending| > 0 && w.pending[Earliest(w.pending)].due <= t {
      FireDecreases(w);
      InvFire(w);
      InvAdvance(Fire(w), t);
    }
  }

  /** Appending a jump that is not overdue keeps the invariant; the invariant reads only the clock, the state and the timers. */
  lemma InvAddJump(w: World, j: World, due: int, n: int, dir: Dir)
    requires Inv(w) && due >= w.now
    requires j.now == w.now && j.nav == w.nav
    requires j.pending == w.pending + [Timer(due, Jump(n, dir))]
    ensures Inv(j)
  {
    var jump := Timer(due, Jump(n, dir));
    LockTimersConcat(w.pending, [jump]);
    assert LockTimers([jump]) == 0;
    assert forall i :: 0 <= i < |j.pending| ==> j.pending[i] == if i < |w.pending| then w.pending[i] else jump;
  }

  lemma InvDock(w: World, key: string, jumpDelay: nat)
    requires Inv(w)
    ensures Inv(DockClickAfter(w, key, jumpDelay))
  {
    var n := IndexOf(key);
    var r := DockClickAfter(w, key, jumpDelay);
    if n >= 0 && !w.nav.inContentMode {
      InvEnter(w);
      var w1 := EnterContentMode(w);
      if n != 0 {
        InvAddJump(w1, r, w.now + jumpDelay, n, Forward);
      } else {
        assert r.nav == w1.nav && r.pending == w1.pending && r.now == w1.now;
      }
    } else if n >= 0 {
      InvTransition(w, n, if n > w.nav.idx then Forward else Backward);
    }
  }

  /** Every input keeps the invariant, whatever the delay of the dock's follow-up jump. */
  lemma InvStep(w: World, i: Input, dockDelay: nat)
    requires Inv(w)
    ensures Inv(Step(w, i, dockDelay))
  {
    match i
    case ClickCircle => InvEnter(w);
    case ClickDock(key) => InvDock(w, key, dockDelay);
    case WheelInput(ev) => InvPerform(w, WheelRequest(w.nav, ev));
    case TouchStartAt(x, y, bg) =>
    case TouchMoveTo(x, y) =>
    case TouchEndInput => InvTouchEnd(w);
    case Wait(t) => InvAdvance(w, t);
  }

  lemma InvTouchEnd(w: World)
    requires Inv(w)
    ensures Inv(TouchEnd(w))
  {
    if w.touch.tracking {
      var w1 := w.(touch := w.touch.(tracking := false));
      if w1.touch.allowSwipe && !w1.nav.lock {
        var t := w1.touch;
        var req := SwipeRequest(w1.nav, t.lastX - t.startX, t.lastY - t.startY);
        InvPerform(w1, req);
        if req.Move? {
          var w2 := PortalTransition(w1, req.target, req.dir);
          assert TouchEnd(w) == w2.(touch := w2.touch.(allowSwipe := false));
        }
      }
    }
  }

  /** Start-up, done in the corrected order, yields a world in which the invariant holds. */
  lemma InvBoot(p: Option<string>)
    ensures Inv(Boot(p))
  {
    var w0 := Init(Start);
    assert Inv(w0);
    var j := Boot(p);
    if p.Some? && p.value != "" && IndexOf(ToLower(p.value)) >= 0 {
      InvEnter(w0);
      var w1 := EnterContentMode(w0);
      var n := IndexOf(ToLower(p.value));
      if n != 0 {
        InvAddJump(w1, j, w0.now + EnterMs, n, Unspecified);
      } else {
        assert j.nav == w1.nav && j.pending == w1.pending && j.now == w1.now;
      }
    } else {
      assert j == w0;
    }
  }

  /** Whatever the start-up query and whatever the inputs, the invariant holds, so the index names a page. */
  lemma {:induction false} InvSession(p: Option<string>, inputs: seq<Input>)
    ensures Inv(Session(p, inputs))
    ensures 0 <= Session(p, inputs).nav.idx <= Last
    decreases |inputs|
  {
    if |inputs| == 0 {
      InvBoot(p);
    } else {
      InvSession(p, inputs[..|inputs| - 1]);
      InvStep(Session(p, inputs[..|inputs| - 1]), inputs[|inputs| - 1], EnterMs);
    }
  }

  /* ---------------------------------------------------------------- the page index, as written */

  /** The page index names a page of `Order`. */
  predicate IndexValid(w: World)
  {
    0 <= w.nav.idx <= Last
  }

  /** Every timer body leaves a valid index valid: the expansion and the jumps clamp their targets. */
  lemma ValidRun(w: World, cb: Callback)
    requires IndexValid(w)
    ensures IndexValid(Run(w, cb))
  {
  }

  lemma {:induction false} ValidAdvance(w: World, t: int)
    requires IndexValid(w)
    ensures IndexValid(AdvanceTo(w, t))
    decreases TotalWeight(w.pending)
  {
    if |w.pending| > 0 && w.pending[Earliest(w.pending)].due <= t {
      var k := Earliest(w.pending);
      var w1 := w.(now := Max(w.now, w.pending[k].due), pending := w.pending[..k] + w.pending[k + 1..]);
      assert Fire(w) == Run(w1, w.pending[k].cb);
      ValidRun(w1, w.pending[k].cb);
      FireDecreases(w);
      ValidAdvance(Fire(w), t);
    }
  }

  lemma ValidStep(w: World, i: Input, dockDelay: nat)
    requires IndexValid(w)
    ensures IndexValid(Step(w, i, dockDelay))
  {
    match i
    case TouchEndInput =>
      var req := TouchRequest(w);
      if w.touch.tracking && w.touch.allowSwipe && !w.nav.lock && req.Move? {
        assert TouchEnd(w).nav == PortalTransition(w, req.target, req.dir).nav;
      }
    case Wait(t) => ValidAdvance(w, t);
    case _ =>
  }

  /**
   In the script as written, where the invariant does not hold, the page index
   still always names a page: every path to `idx` goes through a clamp or sets 0.
   */
  lemma {:induction false} ValidSessionAsWritten(p: Option<string>, inputs: seq<Input>)
    ensures 0 <= SessionAsWritten(p, inputs).nav.idx <= Last
    decreases |inputs|
  {
    if |inputs| > 0 {
      ValidSessionAsWritten(p, inputs[..|inputs| - 1]);
      ValidStep(SessionAsWritten(p, inputs[..|inputs| - 1]), inputs[|inputs| - 1], DockJumpMs);
    }
  }

  /* ---------------------------------------------------------------- content mode is kept */

  lemma {:induction false} AdvanceKeepsContentMode(w: World, t: int)
    requires w.nav.inContentMode
    ensures AdvanceTo(w, t).nav.inContentMode
    decreases TotalWeight(w.pending)
  {
    if |w.pending| > 0 && w.pending[Earliest(w.pending)].due <= t {
      FireDecreases(w);
      AdvanceKeepsContentMode(Fire(w), t);
    }
  }

  /** Once the landing circle has been left, no input and no timer returns to it. */
  lemma ContentModeStays(w: World, i: Input, dockDelay: nat)
    requires w.nav.inContentMode
    ensures Step(w, i, dockDelay).nav.inContentMode
  {
    if i.Wait? {
      AdvanceKeepsContentMode(w, i.until);
    }
  }

  /* ---------------------------------------------------------------- how long the lock is held */

  /**
   While the lock is held and no lock timer is due, letting time pass only fires
   jumps, and `portalTransition` drops each of them: the state does not change.
   */
  lemma {:induction false} LockedQuiet(w: World, t: int)
    requires w.nav.lock
    requires forall tm :: tm in w.pending && !tm.cb.Jump? ==> tm.due > t
    ensures AdvanceTo(w, t).nav == w.nav && AdvanceTo(w, t).log == w.log
    decreases TotalWeight(w.pending)
  {
    if |w.pending| > 0 && w.pending[Earliest(w.pending)].due <= t {
      var k := Earliest(w.pending);
      var rest := w.pending[..k] + w.pending[k + 1..];
      assert w.pending[k] in w.pending;
      assert forall tm :: tm in rest ==> tm in w.pending;
      FireDecreases(w);
      LockedQuiet(Fire(w), t);
    }
  }

  /**
   After `enterContentMode`, until `EnterMs` have passed, the lock is held on
   page 0 and every `portalTransition` is dropped, whatever jumps are pending.
   */
  lemma EnterHoldsLock(w: World, t: int)
    requires !w.nav.inContentMode && !w.nav.lock
    requires forall tm :: tm in w.pending ==> tm.cb.Jump?
    requires t < w.now + EnterMs
    ensures AdvanceTo(EnterContentMode(w), t).nav == Nav(0, true, true)
    ensures forall next, dir :: PortalTransition(AdvanceTo(EnterContentMode(w), t), next, dir)
                                == AdvanceTo(EnterContentMode(w), t)
  {
    var w1 := EnterContentMode(w);
    assert forall tm :: tm in w1.pending && !tm.cb.Jump? ==> tm == Timer(w.now + EnterMs, EnterDone);
    LockedQuiet(w1, t);
  }

  /** With nothing else pending, the lock is released exactly `EnterMs` after entering. */
  lemma EnterReleasesLock(w: World, t: int)
    requires !w.nav.inContentMode && !w.nav.lock && w.pending == []
    requires t >= w.now + EnterMs
    ensures AdvanceTo(EnterContentMode(w), t).nav == Nav(0, false, true)
    ensures AdvanceTo(EnterContentMode(w), t).pending == []
  {
    var w1 := EnterContentMode(w);
    assert w1.pending == [Timer(w.now + EnterMs, EnterDone)];
    assert Earliest(w1.pending) == 0;
    var w2 := Fire(w1);
    assert w2.nav == Nav(0, false, true) && w2.pending == [];
    FireDecreases(w1);
    assert AdvanceTo(w1, t) == AdvanceTo(w2, t);
  }

  /**
   An accepted `portalTransition` holds the lock, on the new page, for
   `CollapseMs + ExpandMs`, dropping every other transition meanwhile.
   */
  lemma TransitionHoldsLock(w: World, next: int, dir: Dir, t: int)
    requires Accepts(w.nav, next) && w.pending == []
    requires t < w.now + CollapseMs + ExpandMs
    ensures AdvanceTo(PortalTransition(w, next, dir), t).nav == Nav(Clamp(next), true, true)
    ensures forall n, d :: PortalTransition(AdvanceTo(PortalTransition(w, next, dir), t), n, d)
                           == AdvanceTo(PortalTransition(w, next, dir), t)
  {
    var c := Clamp(next);
    var w1 := PortalTransition(w, next, dir);
    assert w1.pending == [Timer(w.now + CollapseMs, Expand(c))];
    if t < w.now + CollapseMs {
      LockedQuiet(w1, t);
    } else {
      assert Earliest(w1.pending) == 0;
      var w2 := Fire(w1);
      assert w2.pending == [Timer(w.now + CollapseMs + ExpandMs, ExpandDone)];
      assert w2.nav == Nav(c, true, true);
      FireDecreases(w1);
      assert AdvanceTo(w1, t) == AdvanceTo(w2, t);
      assert Earliest(w2.pending) == 0;
    }
  }

  /**
   `CollapseMs + ExpandMs` after an accepted `portalTransition` (with nothing else
   pending) the lock is released, the new page having been collapsed into,
   activated and expanded, in that order.
   */
  lemma TransitionReleasesLock(w: World, next: int, dir: Dir, t: int)
    requires Accepts(w.nav, next) && w.pending == []
    requires t >= w.now + CollapseMs + ExpandMs
    ensures var r := AdvanceTo(PortalTransition(w, next, dir), t);
      && r.nav == Nav(Clamp(next), false, true)
      && r.pending == []
      && r.log == w.log + [PortalOut(w.nav.idx), DockHighlight(Clamp(next)), Spin(dir),
                           Activate(Clamp(next)), PortalIn(Clamp(next))]
  {
    TransitionExpands(w, next, dir, t);
    UnlockFires(AfterExpand(w, next, dir), t);
  }

  /** The world of an accepted transition from `w` once its expansion has run. */
  function AfterExpand(w: World, next: int, dir: Dir): World
  {
    var c := Clamp(next);
    w.(now := w.now + CollapseMs, nav := Nav(c, true, true),
       pending := [Timer(w.now + CollapseMs + ExpandMs, ExpandDone)],
       log := w.log + [PortalOut(w.nav.idx), DockHighlight(c), Spin(dir), Activate(c), PortalIn(c)])
  }

  /** The first 560 ms of a transition: collapse, then the expansion of the target. */
  lemma TransitionExpands(w: World, next: int, dir: Dir, t: int)
    requires Accepts(w.nav, next) && w.pending == []
    requires t >= w.now + CollapseMs
    ensures AdvanceTo(PortalTransition(w, next, dir), t) == AdvanceTo(AfterExpand(w, next, dir), t)
  {
    var c := Clamp(next);
    var w1 := PortalTransition(w, next, dir);
    assert w1.pending == [Timer(w.now + CollapseMs, Expand(c))];
    ExpandStep(w1, c, w.now + CollapseMs, t);
    var a := [PortalOut(w.nav.idx), DockHighlight(c), Spin(dir)];
    var b := [Activate(c), PortalIn(c)];
    ConcatAssoc(w.log, a, b);
    assert a + b == [PortalOut(w.nav.idx), DockHighlight(c), Spin(dir), Activate(c), PortalIn(c)];
  }

  /** The 560 ms step of a transition: the expansion of page `c`, due at `due`, fires. */
  lemma ExpandStep(w: World, c: int, due: int, t: int)
    requires 0 <= c <= Last && w.pending == [Timer(due, Expand(c))]
    requires w.now <= due <= t
    ensures AdvanceTo(w, t) ==
      AdvanceTo(w.(now := due, nav := w.nav.(idx := c),
                   pending := [Timer(due + ExpandMs, ExpandDone)],
                   log := w.log + [Activate(c), PortalIn(c)]), t)
  {
    ExpandFires(w, t);
    assert Max(w.now, due) == due;
    assert Clamp(c) == c;
  }

  /** A lone expansion that is due activates its page and schedules the unlock `ExpandMs` later. */
  lemma ExpandFires(w: World, t: int)
    requires |w.pending| == 1 && w.pending[0].cb.Expand? && w.pending[0].due <= t
    ensures var tm := w.pending[0];
      var now := Max(w.now, tm.due);
      var c := Clamp(tm.cb.target);
      AdvanceTo(w, t) == AdvanceTo(w.(now := now, nav := w.nav.(idx := c),
                                      pending := [Timer(now + ExpandMs, ExpandDone)],
                                      log := w.log + [Activate(c), PortalIn(c)]), t)
  {
    FireSingle(w);
    AdvanceFires(w, t);
  }

  /** A lone unlock timer that is due releases the lock and changes nothing else. */
  lemma UnlockFires(w: World, t: int)
    requires |w.pending| == 1 && w.pending[0].cb.ExpandDone? && w.pending[0].due <= t
    ensures var r := AdvanceTo(w, t);
      r.nav == w.nav.(lock := false) && r.pending == [] && r.log == w.log
  {
    FireSingle(w);
    AdvanceFires(w, t);
  }

  /** With one timer pending, firing runs it with the queue emptied. */
  lemma FireSingle(w: World)
    requires |w.pending| == 1
    ensures Fire(w) == Run(w.(now := Max(w.now, w.pending[0].due), pending := []), w.pending[0].cb)
  {
    assert Earliest(w.pending) == 0;
    assert w.pending[..0] + w.pending[1..] == [];
  }

  /** When a timer is due by `t`, letting time pass fires the earliest one first. */
  lemma AdvanceFires(w: World, t: int)
    requires |w.pending| > 0 && w.pending[Earliest(w.pending)].due <= t
    ensures AdvanceTo(w, t) == AdvanceTo(Fire(w), t)
  {
    FireDecreases(w);
  }

  /* ---------------------------------------------------------------- a jump scheduled on entry */

  /**
   The world right after `enterContentMode` at time `start`, plus a jump to page
   `n` scheduled `delay` later.
   */
  predicate EntryWithJump(j: World, start: int, n: int, dir: Dir, delay: nat)
  {
    && j.now == start
    && j.nav == Nav(0, true, true)
    && j.pending == [Timer(start + EnterMs, EnterDone), Timer(start + delay, Jump(n, dir))]
  }

  /** Entering content mode with nothing pending leaves the entry timer as the only one. */
  lemma EnterFromEmpty(w: World)
    requires !w.nav.inContentMode && !w.nav.lock && w.pending == []
    ensures EnterContentMode(w).pending == [Timer(w.now + EnterMs, EnterDone)]
  {
    assert [] + [Timer(w.now + EnterMs, EnterDone)] == [Timer(w.now + EnterMs, EnterDone)];
  }

  /** Entering content mode from an idle world with nothing pending, plus a jump `delay` later. */
  lemma EntryPlusJump(w: World, j: World, n: int, dir: Dir, delay: nat)
    requires !w.nav.inContentMode && !w.nav.lock && w.pending == []
    requires j.now == w.now && j.nav == EnterContentMode(w).nav
    requires j.pending == EnterContentMode(w).pending + [Timer(w.now + delay, Jump(n, dir))]
    ensures EntryWithJump(j, w.now, n, dir, delay)
  {
    var entry := Timer(w.now + EnterMs, EnterDone);
    var jump := Timer(w.now + delay, Jump(n, dir));
    EnterFromEmpty(w);
    assert [entry] + [jump] == [entry, jump];
  }

  /** A jump that comes due before the entry lock is released is dropped: the page stays home. */
  lemma JumpDuringEntryIsLost(j: World, start: int, n: int, dir: Dir, delay: nat, t: int)
    requires EntryWithJump(j, start, n, dir, delay) && delay < EnterMs
    requires t >= start + EnterMs
    ensures AdvanceTo(j, t).nav == Nav(0, false, true)
    ensures AdvanceTo(j, t).pending == []
  {
    assert Earliest(j.pending) == 1;
    var w1 := Fire(j);
    assert w1.pending == [Timer(start + EnterMs, EnterDone)];
    assert w1.nav == j.nav;
    FireDecreases(j);
    assert AdvanceTo(j, t) == AdvanceTo(w1, t);
    assert Earliest(w1.pending) == 0;
    var w2 := Fire(w1);
    assert w2.pending == [] && w2.nav == Nav(0, false, true);
    FireDecreases(w1);
    assert AdvanceTo(w1, t) == AdvanceTo(w2, t);
  }

  /**
   A jump to a page other than home that comes due no earlier than the entry
   lock's release is accepted: from then on the index is `n`, locked for the
   length of a page transition and free afterwards.
   */
  lemma JumpAfterEntryLands(j: World, start: int, n: int, dir: Dir, delay: nat, t: int)
    requires EntryWithJump(j, start, n, dir, delay) && delay >= EnterMs && 0 < n <= Last
    requires t >= start + delay
    ensures t < start + delay + CollapseMs + ExpandMs ==> AdvanceTo(j, t).nav == Nav(n, true, true)
    ensures t >= start + delay + CollapseMs + ExpandMs ==> AdvanceTo(j, t).nav == Nav(n, false, true)
  {
    assert Earliest(j.pending) == 0;
    var w1 := Fire(j);
    assert w1.pending == [Timer(start + delay, Jump(n, dir))];
    assert w1.nav == Nav(0, false, true);
    FireDecreases(j);
    assert AdvanceTo(j, t) == AdvanceTo(w1, t);
    assert Earliest(w1.pending) == 0;
    var w1' := w1.(now := start + delay, pending := []);
    assert Accepts(w1'.nav, n);
    assert Fire(w1) == PortalTransition(w1', n, dir);
    FireDecreases(w1);
    assert AdvanceTo(w1, t) == AdvanceTo(PortalTransition(w1', n, dir), t);
    if t < start + delay + CollapseMs + ExpandMs {
      TransitionHoldsLock(w1', n, dir, t);
    } else {
      TransitionReleasesLock(w1', n, dir, t);
    }
  }

  /* ---------------------------------------------------------------- the dock while on the landing circle */

  /** A dock click on the landing circle for a page other than home: entry plus a jump `delay` later. */
  lemma DockEntry(w: World, key: string, delay: nat)
    requires !w.nav.inContentMode && !w.nav.lock && w.pending == []
    requires IndexOf(key) > 0
    ensures EntryWithJump(DockClickAfter(w, key, delay), w.now, IndexOf(key), Forward, delay)
  {
    EntryPlusJump(w, DockClickAfter(w, key, delay), IndexOf(key), Forward, delay);
  }

  /**
   As written, a dock click on any page but home while on the landing circle
   leaves the visitor on home: the jump comes `DockJumpMs` after entering, while
   the entry lock (held for `EnterMs`) still stands.
   */
  lemma DockJumpIsLost(w: World, key: string, t: int)
    requires !w.nav.inContentMode && !w.nav.lock && w.pending == []
    requires key in Order && key != "home"
    requires t >= w.now + EnterMs
    ensures AdvanceTo(DockClick(w, key), t).nav == Nav(0, false, true)
  {
    var n := IndexOf(key);
    assert n != 0;
    DockEntry(w, key, DockJumpMs);
    JumpDuringEntryIsLost(DockClick(w, key), w.now, n, Forward, DockJumpMs, t);
  }

  /** With the jump scheduled for the release of the entry lock, the dock click lands on its page. */
  lemma DockJumpLands(w: World, key: string, t: int)
    requires !w.nav.inContentMode && !w.nav.lock && w.pending == []
    requires key in Order && key != "home"
    requires t >= w.now + EnterMs
    ensures AdvanceTo(DockClickFixed(w, key), t).nav.idx == IndexOf(key)
    ensures t >= w.now + EnterMs + CollapseMs + ExpandMs ==> !AdvanceTo(DockClickFixed(w, key), t).nav.lock
  {
    var n := IndexOf(key);
    assert n != 0;
    DockEntry(w, key, EnterMs);
    JumpAfterEntryLands(DockClickFixed(w, key), w.now, n, Forward, EnterMs, t);
  }

  /* ---------------------------------------------------------------- start-up */

  /**
   On the landing circle, with no expansion pending, letting time pass changes
   nothing: jumps are dropped outside content mode and unlocks find the lock free.
   */
  lemma {:induction false} IdleQuiet(w: World, t: int)
    requires w.nav == Idle
    requires forall tm :: tm in w.pending ==> !tm.cb.Expand?
    ensures AdvanceTo(w, t).nav == Idle
    decreases TotalWeight(w.pending)
  {
    if |w.pending| > 0 && w.pending[Earliest(w.pending)].due <= t {
      var k := Earliest(w.pending);
      var rest := w.pending[..k] + w.pending[k + 1..];
      assert w.pending[k] in w.pending;
      assert forall tm :: tm in rest ==> tm in w.pending;
      FireDecreases(w);
      IdleQuiet(Fire(w), t);
    }
  }

  /** `jumpFromQuery` from the landing circle for a page other than home: entry plus a jump `delay` later. */
  lemma QueryEntry(w: World, p: Option<string>, delay: nat)
    requires !w.nav.inContentMode && !w.nav.lock && w.pending == []
    requires p.Some? && p.value != "" && IndexOf(ToLower(p.value)) > 0
    ensures EntryWithJump(QueryJumpAfter(w, p, delay), w.now, IndexOf(ToLower(p.value)), Unspecified, delay)
  {
    EntryPlusJump(w, QueryJumpAfter(w, p, delay), IndexOf(ToLower(p.value)), Unspecified, delay);
  }

  /** `jumpFromQuery` from the landing circle schedules at most the entry timer and a jump. */
  lemma QueryJumpNoExpand(w: World, p: Option<string>, jumpDelay: nat)
    requires !w.nav.inContentMode && !w.nav.lock && w.pending == []
    ensures forall tm :: tm in QueryJumpAfter(w, p, jumpDelay).pending ==> !tm.cb.Expand?
  {
    var q := QueryJumpAfter(w, p, jumpDelay);
    var entry := Timer(w.now + EnterMs, EnterDone);
    if p.Some? && p.value != "" && IndexOf(ToLower(p.value)) > 0 {
      var n := IndexOf(ToLower(p.value));
      QueryEntry(w, p, jumpDelay);
      assert q.pending == [entry, Timer(w.now + jumpDelay, Jump(n, Unspecified))];
    } else if p.Some? && p.value != "" && IndexOf(ToLower(p.value)) == 0 {
      EnterFromEmpty(w);
      assert q.pending == [entry];
    } else {
      assert q.pending == [];
    }
  }

  /**
   As written, start-up ends on the landing circle whatever `?p=` says, and stays
   there without input: the init block, which runs after `jumpFromQuery`, resets
   the state, and the jump it scheduled then finds content mode off.
   */
  lemma BootStaysIdle(p: Option<string>, t: int)
    ensures BootAsWritten(p).nav == Idle
    ensures AdvanceTo(BootAsWritten(p), t).nav == Idle
  {
    QueryJumpNoExpand(Start, p, QueryJumpMs);
    IdleQuiet(BootAsWritten(p), t);
  }

  /** With the init block first and the jump due when the entry lock is released, `?p=` opens its page. */
  lemma BootJumpLands(p: Option<string>, t: int)
    requires p.Some? && ToLower(p.value) in Order && ToLower(p.value) != "home"
    requires t >= EnterMs
    ensures AdvanceTo(Boot(p), t).nav.idx == IndexOf(ToLower(p.value))
    ensures AdvanceTo(Boot(p), t).nav.inContentMode
    ensures t >= EnterMs + CollapseMs + ExpandMs ==> !AdvanceTo(Boot(p), t).nav.lock
  {
    var n := IndexOf(ToLower(p.value));
    assert n != 0;
    assert |ToLower(p.value)| == |Order[n]| > 0;
    QueryEntry(Init(Start), p, EnterMs);
    JumpAfterEntryLands(Boot(p), 0, n, Unspecified, EnterMs, t);
  }

  /** Start-up as written with `?p=projects`: on the landing circle, with the entry timer and the jump pending. */
  lemma BootProjectsAsWritten()
    ensures var b := BootAsWritten(Some("projects"));
      && b.now == 0 && b.nav == Idle
      && b.pending == [Timer(EnterMs, EnterDone), Timer(QueryJumpMs, Jump(1, Unspecified))]
  {
    assert ToLower("projects") == "projects";
    assert IndexOf("projects") == 1;
  }

  /**
   The entry timer that `jumpFromQuery` scheduled survives the init block. A
   visitor who clicks the circle 100 ms after loading `?p=projects` finds the lock
   released at `EnterMs`, 100 ms before the click's own entry animation ends, so a
   wheel movement at that moment starts a page transition during the entry.
   */
  lemma StaleEntryTimerUnlocksEarly()
    ensures var w1 := CircleClick(AdvanceTo(BootAsWritten(Some("projects")), 100));
      var w2 := AdvanceTo(w1, EnterMs);
      && w1.nav.lock
      && !w2.nav.lock
      && Timer(100 + EnterMs, EnterDone) in w2.pending
      && Wheel(w2, WheelEvent(0.0, 100.0, None)).nav == Nav(1, true, true)
  {
    BootProjectsAsWritten();
    var b := BootAsWritten(Some("projects"));
    assert Earliest(b.pending) == 1;
    var w0 := AdvanceTo(b, 100);
    assert w0 == b.(now := 100);
    var w1 := CircleClick(w0);
    assert w1.nav == Nav(0, true, true);
    assert w1.pending == b.pending + [Timer(100 + EnterMs, EnterDone)];
    StaleUnlockSteps(w1);
  }

  lemma StaleUnlockSteps(w1: World)
    requires w1.now == 100 && w1.nav == Nav(0, true, true)
    requires w1.pending == [Timer(EnterMs, EnterDone), Timer(QueryJumpMs, Jump(1, Unspecified)), Timer(100 + EnterMs, EnterDone)]
    ensures var w2 := AdvanceTo(w1, EnterMs);
      && !w2.nav.lock
      && Timer(100 + EnterMs, EnterDone) in w2.pending
      && Wheel(w2, WheelEvent(0.0, 100.0, None)).nav == Nav(1, true, true)
  {
    assert Earliest(w1.pending) == 1;
    var f1 := Fire(w1);
    assert f1.pending == [Timer(EnterMs, EnterDone), Timer(100 + EnterMs, EnterDone)];
    assert f1.nav == w1.nav;
    FireDecreases(w1);
    assert AdvanceTo(w1, EnterMs) == AdvanceTo(f1, EnterMs);
    assert Earliest(f1.pending) == 0;
    var f2 := Fire(f1);
    assert f2.pending == [Timer(100 + EnterMs, EnterDone)];
    assert f2.nav == Nav(0, false, true);
    FireDecreases(f1);
    assert AdvanceTo(f1, EnterMs) == AdvanceTo(f2, EnterMs);
    assert Earliest(f2.pending) == 0;
  }

  /** The as-written start-up leaves a world outside the invariant: free lock, live entry timer. */
  lemma BootAsWrittenBreaksInv()
    ensures !Inv(BootAsWritten(Some("projects")))
  {
    BootProjectsAsWritten();
    var b := BootAsWritten(Some("projects"));
    var tail := [Timer(QueryJumpMs, Jump(1, Unspecified))];
    assert LockTimers(tail) == 0 by {
      assert tail[1..] == [];
    }
    assert b.pending[1..] == tail;
    assert LockTimers(b.pending) == 1;
  }
}

=== FILE: wrappers.dfy ===
/** JavaScript's `null`/`undefined` for a value that is otherwise a string. */
module Wrappers {

  datatype Option<+T> = None | Some(value: T) {

    /** The value, or `default` when there is none (the `?? default` of JavaScript). */
    function GetOr(default: T): T
    {
      match this
      case Some(v) => v
      case None => default
    }
  }
}
